=== FILE: README.md ===
# Bank transaction simulator: sequential model

This project models the core of a bank transaction simulator in Dafny. The
simulator keeps accounts in two banks (OTP and KH). A generator produces random
deposits, withdrawals and transfers. An orchestrator routes each one into the
bounded queue of its source account's bank. Per-bank processors hand every
transaction to a worker, which validates it with a third-party monitor,
applies it to the account registry and exports it to a per-bank JSON audit
file. At the end of a cycle the orchestrator copies every balance into an
output channel and resets it to zero.

In the Java program these steps run on threads, behind locks. Here each step is a
pure function or a small method over immutable values:

- an account registry is a `map<string, Account>`;
- the export directory is a map from file name to what the file holds
  (`Records`, `Blank` or `Unparseable`);
- a bank queue is a sequence with a capacity, where blocking becomes a
  precondition;
- Java `int` is the subset type `Int32`, and `+`/`-` wrap around as in Java
  (`Base.Wrap`);
- random numbers are oracle parameters (`Generator.Draws`), and the creation
  instant is an opaque `Timestamp`;
- hash-map iteration order is a parameter that must list every key once
  (`Simulator.Enumerates`). The balance snapshot walks the accounts in the
  order of the generator's id list: both come from iterating the same account
  map, which is never changed structurally.

Modules follow the source files: `Transactions` (Transaction.java), `Accounts`
(BankAccount.java), `Monitor` (ThirdPartyMonitor.java), `Processor` (the worker
task of BankTransactionProcessor.java), `Exporter` (TransactionExporter.java),
`Generator` (TransactionGenerator.java), `Queues` (TransactionQueue.java) and
`Simulator` (BankSimulator.java). `Base` holds `Option`, `Result` and the `int`
arithmetic. `Registry` holds the registry's total balance and lemmas about it.

## Behaviour of the code worth noting

The full paths of the files named here are in the table under "## Model".

- `ThirdPartyMonitor.java:15-20` sets FAILED for an amount of at most 0 and
  COMPLETED otherwise. It overwrites whatever status the transaction had, so a
  FAILED transaction with a positive amount comes out COMPLETED
  (`Monitor.MonitorIgnoresPriorStatus`).
- The comments at `TransactionGenerator.java:25` and `:32` say amounts are
  "between 50 and 500". The code draws `50 + nextInt(450)`, which is 50 to
  499, so 500 is never generated.
- The field comment at `Transaction.java:14` says the target is "only for
  TRANSFER type transactions", and the three-argument constructor
  (`Transaction.java:21-28`) sets it to null. Only one direction holds: a
  target appears only on a TRANSFER, but a TRANSFER built with that
  constructor has none. `setType` (`Transaction.java:82-84`) neither checks
  nor clears the target (`Transactions.SetTypeCanBreakTargetRule`). The
  exporter writes a target only for TRANSFER (`TransactionExporter.java:54`),
  so a leftover target never reaches a file.
- A covered transfer (`BankAccount.java:109-112`) does not write the status.
  In the worker it stays COMPLETED because the monitor set it.
- `BankAccount.java:110-111` debits the source and then deposits into the
  target. When the target is the source itself, the balance ends where it
  started (`Processor.SelfTransferKeepsRegistry`).
- The file names of `TransactionExporter.java:37-41` are not injective across
  banks. Bank `X_failed` writes completed transactions to the file where bank
  `X` writes failed ones. For one bank the two outcomes never share a file,
  and for one outcome two banks never share one.

## Model

| member | source | states |
|---|---|---|
| Transactions.NewTransaction | Bank_Transaction_Simulator_1_0_0/BankTransactionHandler_1_0_0/src/TransactionsSimulator/Transaction.java:21-28 | a new transaction is PENDING, has no target, keeps account, amount, type and creation instant, and satisfies the target rule |
| Transactions.NewTransfer | Bank_Transaction_Simulator_1_0_0/BankTransactionHandler_1_0_0/src/TransactionsSimulator/Transaction.java:40-47 | succeeds exactly for TRANSFER and then equals the three-argument result with the given target; any other type is an error |
| Transactions.SetTargetAccountId | Bank_Transaction_Simulator_1_0_0/BankTransactionHandler_1_0_0/src/TransactionsSimulator/Transaction.java:62-68 | succeeds exactly on a TRANSFER and changes only the target; otherwise it is an error |
| Transactions.SetAccountId | Bank_Transaction_Simulator_1_0_0/BankTransactionHandler_1_0_0/src/TransactionsSimulator/Transaction.java:54-56 | writes the source id; restoring the old id gives the original record back |
| Transactions.SetAmount | Bank_Transaction_Simulator_1_0_0/BankTransactionHandler_1_0_0/src/TransactionsSimulator/Transaction.java:74-76 | writes the amount and no other field |
| Transactions.SetType | Bank_Transaction_Simulator_1_0_0/BankTransactionHandler_1_0_0/src/TransactionsSimulator/Transaction.java:82-84 | writes the type and no other field; the target is kept as it was |
| Transactions.SetStatus | Bank_Transaction_Simulator_1_0_0/BankTransactionHandler_1_0_0/src/TransactionsSimulator/Transaction.java:90-92 | overwrites the status whatever it was and changes no other field |
| Transactions.SetTimestamp | Bank_Transaction_Simulator_1_0_0/BankTransactionHandler_1_0_0/src/TransactionsSimulator/Transaction.java:35-37 | writes the creation instant and no other field |
| Transactions.SettersKeepTargetRule | Bank_Transaction_Simulator_1_0_0/BankTransactionHandler_1_0_0/src/TransactionsSimulator/Transaction.java:35-92 | every setter except the type setter keeps "a target only on a TRANSFER" |
| Transactions.SetTypeCanBreakTargetRule | Bank_Transaction_Simulator_1_0_0/BankTransactionHandler_1_0_0/src/TransactionsSimulator/Transaction.java:82-84 | retyping a transaction that has a target to a non-TRANSFER leaves a non-TRANSFER with a target |
| Accounts.NewAccount | Bank_Transaction_Simulator_1_0_0/BankTransactionHandler_1_0_0/src/TransactionsSimulator/BankAccount.java:33-37 | a new account has balance 0 and the given id and bank |
| Accounts.Deposit | Bank_Transaction_Simulator_1_0_0/BankTransactionHandler_1_0_0/src/TransactionsSimulator/BankAccount.java:65-73 | id and bank are unchanged; the balance has the bit pattern of old balance plus amount, and equals it when no overflow occurs |
| Accounts.Withdraw | Bank_Transaction_Simulator_1_0_0/BankTransactionHandler_1_0_0/src/TransactionsSimulator/BankAccount.java:80-97 | a covered amount is debited and the status becomes COMPLETED; an uncovered one leaves the account unchanged and sets FAILED; only the status of the transaction changes; a non-negative balance stays non-negative for a non-negative amount |
| Accounts.Transfer | Bank_Transaction_Simulator_1_0_0/BankTransactionHandler_1_0_0/src/TransactionsSimulator/BankAccount.java:106-121 | with enough funds the source loses and the target gains the amount, the pair's sum is conserved when the credit does not overflow, and the status is not written; without funds both accounts are unchanged and the status is FAILED |
| Accounts.ResetBalance | Bank_Transaction_Simulator_1_0_0/BankTransactionHandler_1_0_0/src/TransactionsSimulator/BankAccount.java:126-133 | the balance becomes 0; id and bank stay |
| Accounts.DepositThenWithdraw | Bank_Transaction_Simulator_1_0_0/BankTransactionHandler_1_0_0/src/TransactionsSimulator/BankAccount.java:65-91 | a withdrawal that succeeds right after a deposit of the same amount restores the account exactly, even across wrap-around |
| Monitor.MonitorTransaction | Bank_Transaction_Simulator_1_0_0/BankTransactionHandler_1_0_0/src/ThirdParticipante/ThirdPartyMonitor.java:11-22 | the status becomes FAILED exactly when the amount is at most 0 and COMPLETED exactly when it is positive; nothing but the status changes |
| Monitor.MonitorIdempotent | Bank_Transaction_Simulator_1_0_0/BankTransactionHandler_1_0_0/src/ThirdParticipante/ThirdPartyMonitor.java:15-21 | validating twice gives the same transaction as validating once |
| Monitor.MonitorIgnoresPriorStatus | Bank_Transaction_Simulator_1_0_0/BankTransactionHandler_1_0_0/src/ThirdParticipante/ThirdPartyMonitor.java:15-21 | the verdict does not depend on the incoming status, so a FAILED transaction with a positive amount comes out COMPLETED |
| Exporter.NamesRoundTrip | BankTransactionHandler_1_0_0/src/TransactionsSimulator/TransactionExporter.java:53-55 | the type and status names written into a record read back to the enum values they came from |
| Exporter.FileName | BankTransactionHandler_1_0_0/src/TransactionsSimulator/TransactionExporter.java:36-42 | FAILED selects `<bank>_failed_transactions.json`; every other status selects `<bank>_transactions.json` |
| Exporter.ToRecord | BankTransactionHandler_1_0_0/src/TransactionsSimulator/TransactionExporter.java:49-55 | the record keeps account, amount and instant, its type and status names read back to the transaction's, and it carries a target exactly for a TRANSFER that has one |
| Exporter.ExistingRecords | BankTransactionHandler_1_0_0/src/TransactionsSimulator/TransactionExporter.java:58-71 | a loadable file yields its list; a missing, blank or unloadable file yields the empty list |
| Exporter.ExportToFile | BankTransactionHandler_1_0_0/src/TransactionsSimulator/TransactionExporter.java:47-82 | the chosen file becomes its loaded list with the record appended at the end, and no other file changes |
| Exporter.ExportTransaction | BankTransactionHandler_1_0_0/src/TransactionsSimulator/TransactionExporter.java:36-42 | appends the record to the failed file for a FAILED transaction and to the plain file otherwise, touching nothing else |
| Exporter.ExportReadBack | BankTransactionHandler_1_0_0/src/TransactionsSimulator/TransactionExporter.java:58-78 | after an export the file grew by one and ends with the transaction's record; an unloadable or blank file now holds only that record |
| Exporter.OutcomesUseDistinctFiles | BankTransactionHandler_1_0_0/src/TransactionsSimulator/TransactionExporter.java:37-41 | for one bank, failed and completed transactions never share a file |
| Exporter.BanksUseDistinctFiles | BankTransactionHandler_1_0_0/src/TransactionsSimulator/TransactionExporter.java:37-41 | for one outcome, two different banks never share a file |
| Exporter.ExportsToDifferentFilesCommute | BankTransactionHandler_1_0_0/src/TransactionsSimulator/TransactionExporter.java:47-82 | exports that land in different files give the same directory in either order |
| Generator.TypeAt | BankTransactionHandler_1_0_0/src/TransactionsSimulator/TransactionGenerator.java:31 | index 0 draws DEPOSIT and index 2 draws TRANSFER, in the enum's declaration order |
| Generator.NewGenerator | BankTransactionHandler_1_0_0/src/TransactionsSimulator/TransactionGenerator.java:19-21 | a new generator has the given ids and an empty, valid buffer |
| Generator.FirstOther | BankTransactionHandler_1_0_0/src/TransactionsSimulator/TransactionGenerator.java:37-41 | the resampling loop stops at the first draw naming an id other than the source, and every earlier draw named the source |
| Generator.Build | BankTransactionHandler_1_0_0/src/TransactionsSimulator/TransactionGenerator.java:30-45 | the transaction is PENDING, its amount is in [50, 499], its source is among the ids, and a TRANSFER gets as its target the first drawn id that differs from its source, while other types get none |
| Generator.GenerateRandomTransaction | BankTransactionHandler_1_0_0/src/TransactionsSimulator/TransactionGenerator.java:29-49 | with no ids it fails; otherwise the buffer becomes the old buffer followed by exactly the transaction `Build` makes from the draws, which is well formed |
| Generator.RetrieveAndClearBuffer | BankTransactionHandler_1_0_0/src/TransactionsSimulator/TransactionGenerator.java:55-59 | returns the buffer's contents in order and leaves the buffer empty |
| Generator.RetrieveTwice | BankTransactionHandler_1_0_0/src/TransactionsSimulator/TransactionGenerator.java:55-59 | a second retrieval right after the first returns nothing and changes nothing |
| Generator.GenerateMany | Bank_Transaction_Simulator_1_0_0/BankTransactionHandler_1_0_0/src/TransactionsSimulator/BankSimulator.java:72-75 | n generation calls append exactly n transactions after the old buffer, the i-th being the one `Build` makes from the i-th draws, each well formed |
| Queues.NewQueue | Bank_Transaction_Simulator_1_0_0/BankTransactionHandler_1_0_0/src/TransactionsSimulator/TransactionQueue.java:21-23 | a positive capacity gives an empty valid queue of that capacity; anything else is an error |
| Queues.Add | Bank_Transaction_Simulator_1_0_0/BankTransactionHandler_1_0_0/src/TransactionsSimulator/TransactionQueue.java:32-34 | on a queue that is not full, the element goes at the tail, the size grows by one, the others keep their places and the capacity holds |
| Queues.Take | Bank_Transaction_Simulator_1_0_0/BankTransactionHandler_1_0_0/src/TransactionsSimulator/TransactionQueue.java:43-45 | on a non-empty queue, the head followed by the remaining queue is the old contents |
| Queues.Size | Bank_Transaction_Simulator_1_0_0/BankTransactionHandler_1_0_0/src/TransactionsSimulator/TransactionQueue.java:52-54 | the size never exceeds the capacity and is zero exactly for an empty queue |
| Queues.RunIsFifo | Bank_Transaction_Simulator_1_0_0/BankTransactionHandler_1_0_0/src/TransactionsSimulator/TransactionQueue.java:32-54 | over any sequence of non-blocking puts and takes, what was taken followed by what remains equals the start contents followed by what was put; the size is start + puts - takes and never exceeds the capacity |
| Processor.Apply | Bank_Transaction_Simulator_1_0_0/BankTransactionHandler_1_0_0/src/TransactionsSimulator/BankTransactionProcessor.java:76-91 | only the source and the credited account can change, no account is added or re-owned, a COMPLETED transaction ends COMPLETED or FAILED, a transfer without a registered target fails with nothing moved, and a transfer to another registered account debits the source and credits the target (status untouched) when covered, or fails with nothing moved when not |
| Processor.WorkerStep | Bank_Transaction_Simulator_1_0_0/BankTransactionHandler_1_0_0/src/TransactionsSimulator/BankTransactionProcessor.java:66-99 | an unknown source changes nothing; a gate failure moves no money and exports nothing; past the gate the status is COMPLETED or FAILED and exactly one record is appended to the file that status selects |
| Processor.WorkerDeposit | Bank_Transaction_Simulator_1_0_0/BankTransactionHandler_1_0_0/src/TransactionsSimulator/BankTransactionProcessor.java:75-94 | a validated DEPOSIT raises the source balance by the amount, ends COMPLETED and is exported to the completed file |
| Processor.WorkerWithdrawal | Bank_Transaction_Simulator_1_0_0/BankTransactionHandler_1_0_0/src/TransactionsSimulator/BankTransactionProcessor.java:80-94 | a validated WITHDRAWAL is debited and COMPLETED when covered, and FAILED with nothing changed otherwise; it is exported in both cases |
| Processor.WorkerTransferMissingTarget | Bank_Transaction_Simulator_1_0_0/BankTransactionHandler_1_0_0/src/TransactionsSimulator/BankTransactionProcessor.java:83-94 | a validated TRANSFER without a registered target ends FAILED, moves no money and is still exported, to the failed file |
| Processor.WorkerTransfer | Bank_Transaction_Simulator_1_0_0/BankTransactionHandler_1_0_0/src/TransactionsSimulator/BankTransactionProcessor.java:83-86 | a validated TRANSFER to another registered account, when covered, debits the source by exactly the amount, credits the target, ends COMPLETED and goes to the completed file; when not covered it ends FAILED, moves nothing and goes to the failed file |
| Processor.SelfTransferKeepsRegistry | Bank_Transaction_Simulator_1_0_0/BankTransactionHandler_1_0_0/src/TransactionsSimulator/BankTransactionProcessor.java:83-86 | a transfer from an account to itself leaves every balance as it was |
| Processor.WorkerTotal | Bank_Transaction_Simulator_1_0_0/BankTransactionHandler_1_0_0/src/TransactionsSimulator/BankTransactionProcessor.java:76-91 | the registry total grows by the amount for a deposit, shrinks by it for a completed withdrawal, and is conserved by every transfer and every failed or dropped transaction |
| Processor.WorkerKeepsBalancesNonNegative | Bank_Transaction_Simulator_1_0_0/BankTransactionHandler_1_0_0/src/TransactionsSimulator/BankTransactionProcessor.java:76-91 | from non-negative balances whose total leaves room for the amount, no balance becomes negative |
| Processor.NetEffect | Bank_Transaction_Simulator_1_0_0/BankTransactionHandler_1_0_0/src/TransactionsSimulator/BankTransactionProcessor.java:76-91 | a transaction that is not COMPLETED, comes from an unregistered account or has no positive amount moves no money; otherwise the money it moves lies between minus and plus its amount |
| Processor.WorkerNet | Bank_Transaction_Simulator_1_0_0/BankTransactionHandler_1_0_0/src/TransactionsSimulator/BankTransactionProcessor.java:65-99 | from non-negative balances with room for the amount, one worker step changes the total by exactly the net effect of the transaction it hands back (the amount for a completed deposit, minus it for a completed withdrawal, nothing otherwise) and leaves no balance negative |
| Simulator.InitialAccounts | Bank_Transaction_Simulator_1_0_0/BankTransactionHandler_1_0_0/src/TransactionsSimulator/BankSimulator.java:15-18 | Account_1 and Account_3 belong to OTP and Account_2 to KH; each is filed under its own id and starts at 0 |
| Simulator.Setup | Bank_Transaction_Simulator_1_0_0/BankTransactionHandler_1_0_0/src/TransactionsSimulator/BankSimulator.java:13-39 | the three accounts, one empty queue of capacity 10 for each of OTP and KH, a generator over the ids, an empty channel; every account's bank has a queue |
| Simulator.Seed | Bank_Transaction_Simulator_1_0_0/BankTransactionHandler_1_0_0/src/TransactionsSimulator/BankSimulator.java:65-67 | adds 1000, 1000 and 501 to Account_1, Account_2 and Account_3 and touches no other account |
| Simulator.SeedAddsMoney | Bank_Transaction_Simulator_1_0_0/BankTransactionHandler_1_0_0/src/TransactionsSimulator/BankSimulator.java:65-67 | from non-negative balances with room for it, seeding adds exactly 2501 to the total and keeps every balance non-negative |
| Simulator.Route | Bank_Transaction_Simulator_1_0_0/BankTransactionHandler_1_0_0/src/TransactionsSimulator/BankSimulator.java:85-93 | each bank queue ends with its old contents followed by exactly the batch's transactions of that bank, in batch order, within capacity |
| Simulator.ForBankSameBanks | Bank_Transaction_Simulator_1_0_0/BankTransactionHandler_1_0_0/src/TransactionsSimulator/BankSimulator.java:87-88 | a bank's share of a batch depends only on which bank each source account is filed under, so registries that file the same accounts under the same banks route alike |
| Simulator.Drain | Bank_Transaction_Simulator_1_0_0/BankTransactionHandler_1_0_0/src/TransactionsSimulator/BankTransactionProcessor.java:38-43 | a processor that works through its queue empties it, keeps the queue's capacity and the accounts' owners, and hands out one processed transaction per queued one |
| Simulator.DrainProcessed | Bank_Transaction_Simulator_1_0_0/BankTransactionHandler_1_0_0/src/TransactionsSimulator/BankTransactionProcessor.java:38-43 | the i-th transaction handed out is the i-th one queued with only its status set (FIFO), and each one from a registered account with a positive amount ends COMPLETED or FAILED |
| Simulator.WorkerExports | Bank_Transaction_Simulator_1_0_0/BankTransactionHandler_1_0_0/src/TransactionsSimulator/BankTransactionProcessor.java:65-99 | one worker step appends to every file exactly the record of its transaction when it passed the gate and its status selects that file, and nothing otherwise |
| Simulator.DrainTotal | Bank_Transaction_Simulator_1_0_0/BankTransactionHandler_1_0_0/src/TransactionsSimulator/BankTransactionProcessor.java:38-43 | from non-negative balances with room for every queued amount, draining a queue changes the total by exactly the summed net effect of the transactions handed back, never by more than the queued positive amounts, and leaves no balance negative |
| Simulator.DrainExports | Bank_Transaction_Simulator_1_0_0/BankTransactionHandler_1_0_0/src/TransactionsSimulator/BankTransactionProcessor.java:38-43 | draining a queue appends to every file exactly the records of the handed back transactions that passed the gate and whose status selects it, in FIFO order |
| Simulator.DrainAll | Bank_Transaction_Simulator_1_0_0/BankTransactionHandler_1_0_0/src/TransactionsSimulator/BankSimulator.java:99-100 | running every processor keeps the accounts' owners and the set of bank queues |
| Simulator.DrainAllQueues | Bank_Transaction_Simulator_1_0_0/BankTransactionHandler_1_0_0/src/TransactionsSimulator/BankSimulator.java:99-100 | after the processing pause every visited bank queue is empty with its capacity kept, and the queues of banks not visited are unchanged |
| Simulator.DrainAllProcessed | Bank_Transaction_Simulator_1_0_0/BankTransactionHandler_1_0_0/src/TransactionsSimulator/BankTransactionProcessor.java:36-48 | when every processor has drained its queue, each bank in the iteration order gets back exactly what its queue held, in FIFO order with only the status set, and nothing is handed back under a bank without a queue or outside the order |
| Simulator.HandledSplit | Bank_Transaction_Simulator_1_0_0/BankTransactionHandler_1_0_0/src/TransactionsSimulator/BankTransactionProcessor.java:36-48 | putting the first bank's handed back run in front of the later banks' runs keeps each bank's share equal to its queue up to status, and other names empty |
| Simulator.HandledByCons | Bank_Transaction_Simulator_1_0_0/BankTransactionHandler_1_0_0/src/TransactionsSimulator/BankTransactionProcessor.java:36-48 | a run labelled with one bank adds, in front, to that bank's share and to no other bank's |
| Simulator.HandledByTagged | Bank_Transaction_Simulator_1_0_0/BankTransactionHandler_1_0_0/src/TransactionsSimulator/BankTransactionProcessor.java:36-48 | a run labelled with one bank is exactly that bank's share and nobody else's |
| Simulator.HandledByAppend | Bank_Transaction_Simulator_1_0_0/BankTransactionHandler_1_0_0/src/TransactionsSimulator/BankTransactionProcessor.java:36-48 | each bank's share of two runs one after the other is its share of the first followed by its share of the second |
| Simulator.DrainAllTotal | Bank_Transaction_Simulator_1_0_0/BankTransactionHandler_1_0_0/src/TransactionsSimulator/BankSimulator.java:99-100 | from non-negative balances with room for every queued amount, running every processor changes the total by exactly the summed net effect of all handed back transactions and leaves no balance negative |
| Simulator.DrainAllExports | Bank_Transaction_Simulator_1_0_0/BankTransactionHandler_1_0_0/src/TransactionsSimulator/BankSimulator.java:99-100 | running every processor appends to every file exactly the records of the handed back transactions that passed the gate and whose status selects it, bank after bank |
| Simulator.BatchRoutable | Bank_Transaction_Simulator_1_0_0/BankTransactionHandler_1_0_0/src/TransactionsSimulator/BankSimulator.java:72-93 | a freshly generated batch of five fits the empty queues: every source is registered and its bank has a queue with room for the batch |
| Simulator.RoutedPositives | Bank_Transaction_Simulator_1_0_0/BankTransactionHandler_1_0_0/src/TransactionsSimulator/BankSimulator.java:85-93 | when each bank queue holds exactly its bank's share of a generated batch, the positive amounts in each queue sum to at most the batch size times 499 |
| Simulator.GenerateBatch | Bank_Transaction_Simulator_1_0_0/BankTransactionHandler_1_0_0/src/TransactionsSimulator/BankSimulator.java:72-78 | five generation calls followed by a retrieval hand out five well-formed transactions, the i-th built from the i-th draws, and leave the buffer empty over the same ids |
| Simulator.RouteBatch | Bank_Transaction_Simulator_1_0_0/BankTransactionHandler_1_0_0/src/TransactionsSimulator/BankSimulator.java:84-93 | routing a generated batch into the empty bank queues by the banks of a registry with the same accounts leaves every queue valid with its capacity, holding exactly its bank's share in batch order and at most five transactions' worth of money |
| Simulator.RouteBound | Bank_Transaction_Simulator_1_0_0/BankTransactionHandler_1_0_0/src/TransactionsSimulator/BankSimulator.java:85-93 | routing a five-transaction generated batch into empty queues puts exactly each bank's share in its queue, with at most five transactions' worth of money |
| Simulator.GenerateAndRoute | Bank_Transaction_Simulator_1_0_0/BankTransactionHandler_1_0_0/src/TransactionsSimulator/BankSimulator.java:72-93 | the batch has five transactions, the i-th built from the i-th draws; every bank queue, valid with its capacity, holds exactly its bank's share of the batch in batch order (so at most five transactions' worth of money); the generator buffer ends empty over the same ids |
| Simulator.SeedAndRoute | Bank_Transaction_Simulator_1_0_0/BankTransactionHandler_1_0_0/src/TransactionsSimulator/BankSimulator.java:65-93 | seeding keeps the accounts' owners; the batch has five transactions, the i-th built from the i-th draws, and every bank queue holds exactly its bank's share of it in batch order, valid with its capacity and with at most five transactions' worth of money; the generator buffer ends empty; from non-negative balances with headroom seeding adds exactly 2501 to the total and keeps balances non-negative |
| Simulator.ProcessBatch | Bank_Transaction_Simulator_1_0_0/BankTransactionHandler_1_0_0/src/TransactionsSimulator/BankSimulator.java:65-100 | the batch has five transactions, the i-th built from the i-th draws; each bank's processor hands back exactly its bank's share of the batch, in batch order with only the status set, and nothing is handed back under any other name; accounts keep their owners and every bank queue ends empty with its capacity; every file gains exactly the records of the handed back transactions that passed the gate and whose status selects it; from non-negative balances with headroom the total grows by 2501 plus the net effect of everything handed back |
| Simulator.SnapshotAndReset | Bank_Transaction_Simulator_1_0_0/BankTransactionHandler_1_0_0/src/TransactionsSimulator/BankSimulator.java:103-112 | appends exactly one balance per account, in iteration order, behind the old channel contents, then leaves every balance at 0 |
| Simulator.FinishCycle | Bank_Transaction_Simulator_1_0_0/BankTransactionHandler_1_0_0/src/TransactionsSimulator/BankSimulator.java:103-113 | the channel gains, in id order, exactly the balances of the registry processing left, behind its old contents; every balance ends at 0; accounts keep their ids and banks, queues their capacities, the generator its ids; the simulator is wired and idle again and, if it was ready for a cycle, ready for the next one with the same draws |
| Simulator.Cycle | Bank_Transaction_Simulator_1_0_0/BankTransactionHandler_1_0_0/src/TransactionsSimulator/BankSimulator.java:57-113 | one cycle ends wired, idle and ready for the next one, with the same accounts (ids and banks), bank queues and capacities, generator ids, and every balance at 0; the batch has five transactions, the i-th built from the i-th draws, and each bank's processor hands back exactly its share, in batch order with only the status set; the channel gains, in id order, the balances of the registry as processing left it; every file gains exactly the records of the handed back transactions that passed the gate; from non-negative balances with headroom that registry holds the old total plus 2501 plus the net effect of everything handed back |

## Left out

- Threads, the per-bank thread pool, the processor's dispatch loop, `stop`,
  `awaitTermination` and the volatile stop flag: concurrency and executor
  lifecycle. `Simulator.Drain` runs a queue in FIFO order, one worker step at
  a time. That is one schedule among those the pool allows.
- Locks, `synchronized` and the deadlock hazard of the nested lock in
  `transfer`: every operation is one atomic step.
- Two registry keys naming the same account object: each key holds its own
  value.
- `Thread.sleep`, the endless `while (true)` loop, console output,
  `printWaitingTransactions` and logging: they do not change state. `Cycle`
  models one iteration of the loop.
- Real file I/O, directory creation, JSON text and the ISO-8601 formatting of
  the instant. The model always writes the whole new list.
- Failed writes: `new FileWriter` (`TransactionExporter.java:77`) empties the
  file before writing. A `write` or `close` that fails (line 78) therefore
  leaves the file empty or half-written, and the next export reads it as blank
  or unparseable and starts a new list. The model has no failed write.
- JSON arrays whose elements are not transaction records: the source keeps
  such an array and appends the new record to it
  (`TransactionExporter.java:67`, `:74`). The model has no such content: a
  file holding anything but records is `Unparseable`, and the next export
  discards its elements and starts a new list. Here the model differs from
  the source.
- `java.util.Random` and its uniform distribution: the drawn numbers are
  parameters, and only their ranges are modelled.
- `ThirdPartyMonitor.update`, which only prints.
- Field getters (`getAccountId`, `getBalance`, `getAmount`, …): they are the
  datatype's field selectors and change no state.
- The balance channel's implicit capacity of 2^31 - 1 elements: it is an
  unbounded sequence.
- Processor.WorkerTotal: states the change of the total only when no credit
  in the step overflows a Java `int`. Overflow does not happen with the
  simulator's amounts.
- Simulator.Route: requires room in every queue for the whole batch. In the
  Java program a full queue blocks until a concurrent processor takes an element.
- Simulator.Cycle: routes the whole batch before any processing. The Java
  program processes concurrently with routing.
- Simulator.ProcessBatch: states the change in money only under
  `Simulator.MoneyRoom`. That headroom covers a whole batch at the largest
  amount for every bank. Only one batch is split between the banks, so less
  headroom would do. The bound only rules out wrap-around, which the
  simulator's amounts never reach. `Simulator.Cycle` states its money clause
  under the same headroom.
- GUI and tray code (MainFrame.java, Main.java, ProducerTask.java),
  BankRunner.java and SharedCounter.java: outside the transaction core.
- The source files TransactionType.java and TransactionStatus.java are not
  available. The datatypes `TransactionType` and `TransactionStatus` assume
  their contents. The declaration order DEPOSIT, WITHDRAWAL, TRANSFER is assumed; the field
  comment at `Transaction.java:16` lists the types in that order. The order
  does not affect any property, because the drawn type index
  (`Generator.Draws.typeIndex`) is a free parameter. The enum names are those
  that `TransactionExporter.java:53` and `:55` write.
- Generator.GenerateRandomTransaction: requires that some target draw names
  an id other than the source (`Generator.TargetReached`). With fewer than two
  distinct ids the do-while at `TransactionGenerator.java:39-41` never ends on
  a TRANSFER; the model does not cover that non-terminating call.

=== FILE: account.dfy ===
/** One bank account and the operations it offers. The per-account lock of the
    Java program is gone: every operation is one atomic step on a value. */
module Accounts {
  import opened Base
  import opened Transactions

  datatype Account = Account(id: string, bankName: string, balance: Int32)

  /** What `withdraw` leaves behind: the account and the transaction whose
      status it wrote. */
  datatype Withdrawn = Withdrawn(account: Account, tx: Transaction)

  /** What `transfer` leaves behind for two distinct accounts. */
  datatype Transferred = Transferred(source: Account, target: Account, tx: Transaction)

  /** Only the balance may differ between `a` and `b`. */
  predicate SameOwner(a: Account, b: Account) {
    a.id == b.id && a.bankName == b.bankName
  }

  /** A fresh account starts empty. */
  function NewAccount(id: string, bankName: string): (a: Account)
    ensures a.balance == 0
    ensures a.id == id && a.bankName == bankName
  {
    Account(id, bankName, 0)
  }

  /** Adds `amount` to the balance as Java `int` arithmetic does. */
  function Deposit(a: Account, amount: Int32): (r: Account)
    ensures SameOwner(r, a)
    ensures SameModulo(r.balance, a.balance + amount)
    ensures InInt32(a.balance + amount) ==> r.balance == a.balance + amount
  {
    a.(balance := Wrap(a.balance + amount))
  }

  /** Debits the transaction's amount when the balance covers it and marks the
      transaction COMPLETED; otherwise leaves the balance alone and marks it
      FAILED. No other field of the transaction changes. */
  function Withdraw(a: Account, tx: Transaction): (r: Withdrawn)
    ensures SameOwner(r.account, a)
    ensures r.tx == SetStatus(tx, r.tx.status)
    ensures a.balance >= tx.amount ==> r.tx.status == Completed
    ensures a.balance >= tx.amount ==> SameModulo(r.account.balance, a.balance - tx.amount)
    ensures a.balance >= tx.amount && tx.amount >= 0 ==> r.account.balance == a.balance - tx.amount
    ensures a.balance < tx.amount ==> r.account == a && r.tx.status == Failed
    ensures tx.amount >= 0 && a.balance >= 0 ==> r.account.balance >= 0
  {
    if a.balance >= tx.amount then
      Withdrawn(a.(balance := Wrap(a.balance - tx.amount)), SetStatus(tx, Completed))
    else
      Withdrawn(a, SetStatus(tx, Failed))
  }

  /** Moves `amount` from `source` to a different account `target` when the
      source balance covers it, crediting through the target's own deposit;
      the status is not written on success. Otherwise nothing moves and the
      transaction is marked FAILED. */
  function Transfer(source: Account, amount: Int32, target: Account, tx: Transaction): (r: Transferred)
    ensures SameOwner(r.source, source) && SameOwner(r.target, target)
    ensures source.balance >= amount ==> r.tx == tx
    ensures source.balance >= amount ==> SameModulo(r.source.balance, source.balance - amount)
    ensures source.balance >= amount ==> SameModulo(r.target.balance, target.balance + amount)
    ensures source.balance >= amount && amount >= 0 && InInt32(target.balance + amount) ==>
              r.source.balance + r.target.balance == source.balance + target.balance
    ensures source.balance < amount ==>
              r.source == source && r.target == target && r.tx == SetStatus(tx, Failed)
    ensures amount >= 0 && source.balance >= 0 ==> r.source.balance >= 0
  {
    if source.balance >= amount then
      Transferred(source.(balance := Wrap(source.balance - amount)), Deposit(target, amount), tx)
    else
      Transferred(source, target, SetStatus(tx, Failed))
  }

  /** Sets the balance back to zero; identity and bank stay. */
  function ResetBalance(a: Account): (r: Account)
    ensures SameOwner(r, a) && r.balance == 0
  {
    a.(balance := 0)
  }

  /** A withdrawal that succeeds right after a deposit of the same amount
      restores the balance, wrap-around included. */
  lemma DepositThenWithdraw(a: Account, tx: Transaction)
    requires Deposit(a, tx.amount).balance >= tx.amount
    ensures Withdraw(Deposit(a, tx.amount), tx).account == a
    ensures Withdraw(Deposit(a, tx.amount), tx).tx.status == Completed
  {
    WrapSubAdd(a.balance, -(tx.amount as int));
  }
}

=== FILE: base.dfy ===
/** Shared building blocks: optional values (Java `null`), results of calls that
    may throw, and the arithmetic of Java's 32-bit `int`. */
module Base {

  /** A value that may be absent; `None` plays the part of Java's `null`. */
  datatype Option<+T> = None | Some(value: T)

  /** The outcome of a call that either returns a value or throws an exception,
      whose message is kept. */
  datatype Result<+T> = Ok(value: T) | Err(message: string)

  const IntMin: int := -0x8000_0000
  const IntMax: int := 0x7fff_ffff
  /** Number of distinct values of a Java `int`. */
  const IntRange: int := 0x1_0000_0000

  /** The values a Java `int` can hold. */
  type Int32 = x: int | IntMin <= x <= IntMax

  predicate InInt32(x: int) {
    IntMin <= x <= IntMax
  }

  /** `x` and `y` denote the same Java `int` bit pattern. */
  predicate SameModulo(x: int, y: int) {
    (x - y) % IntRange == 0
  }

  /** The result of Java `int` arithmetic whose mathematical value is `x`
      (two's-complement wrap-around). */
  function Wrap(x: int): (r: Int32)
    ensures SameModulo(r, x)
    ensures InInt32(x) ==> r == x
  {
    (x - IntMin) % IntRange + IntMin
  }

  /** Wrap-around picks the one `int` in the class of `x`: any `int` with the
      same bit pattern as `x` is `Wrap(x)`. */
  lemma WrapUnique(x: int, y: Int32)
    requires SameModulo(y, x)
    ensures Wrap(x) == y
  {
    var w := Wrap(x);
    var d := w - y;
    assert d % IntRange == 0 by {
      assert (w - x) % IntRange == 0;
      assert (y - x) % IntRange == 0;
      assert d == (w - x) - (y - x);
      ModuloDifference(w - x, y - x);
    }
    assert -IntRange < d < IntRange;
    SmallMultipleIsZero(d);
  }

  lemma ModuloDifference(a: int, b: int)
    requires a % IntRange == 0 && b % IntRange == 0
    ensures (a - b) % IntRange == 0
  {
    var qa := a / IntRange;
    var qb := b / IntRange;
    assert a == qa * IntRange;
    assert b == qb * IntRange;
    assert a - b == (qa - qb) * IntRange;
  }

  lemma SmallMultipleIsZero(d: int)
    requires d % IntRange == 0 && -IntRange < d < IntRange
    ensures d == 0
  {
    var q := d / IntRange;
    assert d == q * IntRange;
  }

  /** Subtracting and then adding the same `int` gives the start value back,
      whatever wrapped in between. */
  lemma WrapSubAdd(b: Int32, a: int)
    ensures Wrap(Wrap(b - a) + a) == b
  {
    var w := Wrap(b - a);
    assert SameModulo(w, b - a);
    assert SameModulo(b, w + a) by {
      assert b - (w + a) == -(w - (b - a));
      ModuloDifference(0, w - (b - a));
    }
    WrapUnique(w + a, b);
  }
}

=== FILE: exporter.dfy ===
/** The audit exporter: every exported transaction becomes one record appended
    to a per-bank, per-outcome list. The export directory is a map from file
    name to what the file holds. */
module Exporter {
  import opened Base
  import opened Transactions

  /** One exported record; type and status are kept as their enum names. */
  datatype Record = Record(
    accountId: string,
    amount: Int32,
    timestamp: Timestamp,
    transactionType: string,
    targetAccountId: Option<string>,
    status: string)

  /** What reading an export file can find: a JSON array of records, text that
      is empty once trimmed, or anything that does not load as an array. */
  datatype Content = Records(records: seq<Record>) | Blank | Unparseable

  type Files = map<string, Content>

  const FailedSuffix: string := "_failed_transactions.json"
  const CompletedSuffix: string := "_transactions.json"

  function TypeName(t: TransactionType): string {
    match t
    case Deposit => "DEPOSIT"
    case Withdrawal => "WITHDRAWAL"
    case Transfer => "TRANSFER"
  }

  function StatusName(s: TransactionStatus): string {
    match s
    case Pending => "PENDING"
    case Completed => "COMPLETED"
    case Failed => "FAILED"
  }

  /** Reads a type name back, as an auditor of the files would. */
  function ParseTypeName(name: string): (r: Option<TransactionType>)
    ensures r.Some? ==> TypeName(r.value) == name
  {
    if name == "DEPOSIT" then Some(Deposit)
    else if name == "WITHDRAWAL" then Some(Withdrawal)
    else if name == "TRANSFER" then Some(Transfer)
    else None
  }

  /** Reads a status name back. */
  function ParseStatusName(name: string): (r: Option<TransactionStatus>)
    ensures r.Some? ==> StatusName(r.value) == name
  {
    if name == "PENDING" then Some(Pending)
    else if name == "COMPLETED" then Some(Completed)
    else if name == "FAILED" then Some(Failed)
    else None
  }

  /** Enum names read back to the value they were written from. */
  lemma NamesRoundTrip(t: TransactionType, s: TransactionStatus)
    ensures ParseTypeName(TypeName(t)) == Some(t)
    ensures ParseStatusName(StatusName(s)) == Some(s)
  {
  }

  /** FAILED transactions go to the bank's failed file, every other status to
      its plain transactions file. */
  function FileName(bankName: string, s: TransactionStatus): (name: string)
    ensures s == Failed ==> name == bankName + FailedSuffix
    ensures s != Failed ==> name == bankName + CompletedSuffix
  {
    if s == Failed then bankName + FailedSuffix else bankName + CompletedSuffix
  }

  /** The record written for a transaction; the target is written only for a
      TRANSFER. */
  function ToRecord(tx: Transaction): (rec: Record)
    ensures rec.accountId == tx.accountId && rec.amount == tx.amount && rec.timestamp == tx.timestamp
    ensures ParseTypeName(rec.transactionType) == Some(tx.txType)
    ensures ParseStatusName(rec.status) == Some(tx.status)
    ensures rec.targetAccountId.Some? <==> tx.txType == Transfer && tx.targetAccountId.Some?
    ensures rec.targetAccountId.Some? ==> rec.targetAccountId == tx.targetAccountId
  {
    Record(tx.accountId, tx.amount, tx.timestamp, TypeName(tx.txType),
           if tx.txType == Transfer then tx.targetAccountId else None,
           StatusName(tx.status))
  }

  /** The list the exporter starts from: a missing, blank or unloadable file
      counts as an empty list. */
  function ExistingRecords(files: Files, name: string): (rs: seq<Record>)
    ensures name in files && files[name].Records? ==> rs == files[name].records
    ensures name !in files || !files[name].Records? ==> rs == []
  {
    if name in files && files[name].Records? then files[name].records else []
  }

  /** `after` is `before` with `rec` appended at the end of file `name`'s
      loaded list, and every other file untouched. */
  predicate Appended(before: Files, after: Files, name: string, rec: Record) {
    && after.Keys == before.Keys + {name}
    && after[name] == Records(ExistingRecords(before, name) + [rec])
    && forall n :: n in before && n != name ==> after[n] == before[n]
  }

  /** Loads file `name`, appends the transaction's record and writes the whole
      list back. */
  function ExportToFile(files: Files, tx: Transaction, name: string): (r: Files)
    ensures Appended(files, r, name, ToRecord(tx))
  {
    files[name := Records(ExistingRecords(files, name) + [ToRecord(tx)])]
  }

  /** Exports a transaction for `bankName` into the file its status selects. */
  function ExportTransaction(files: Files, tx: Transaction, bankName: string): (r: Files)
    ensures tx.status == Failed ==> Appended(files, r, bankName + FailedSuffix, ToRecord(tx))
    ensures tx.status != Failed ==> Appended(files, r, bankName + CompletedSuffix, ToRecord(tx))
  {
    ExportToFile(files, tx, FileName(bankName, tx.status))
  }

  /** After an export, the chosen file is a list that ends with the new record,
      which reads back to the transaction's fields; an unloadable or blank
      file is left holding that one record. */
  lemma ExportReadBack(files: Files, tx: Transaction, bankName: string)
    ensures var name := FileName(bankName, tx.status);
            var after := ExportTransaction(files, tx, bankName);
            && after[name].Records?
            && |after[name].records| == |ExistingRecords(files, name)| + 1
            && after[name].records[|after[name].records| - 1] == ToRecord(tx)
            && (name !in files || !files[name].Records? ==> after[name].records == [ToRecord(tx)])
  {
  }

  /** For one bank the two outcomes never share a file. */
  lemma OutcomesUseDistinctFiles(bankName: string)
    ensures FileName(bankName, Failed) != FileName(bankName, Completed)
  {
    assert |FileName(bankName, Failed)| != |FileName(bankName, Completed)|;
  }

  /** For one outcome, distinct banks never share a file. */
  lemma BanksUseDistinctFiles(b1: string, b2: string, s: TransactionStatus)
    requires b1 != b2
    ensures FileName(b1, s) != FileName(b2, s)
  {
    var n1 := FileName(b1, s);
    var n2 := FileName(b2, s);
    if |b1| != |b2| {
      assert |n1| != |n2|;
    } else {
      var i :| 0 <= i < |b1| && b1[i] != b2[i];
      assert n1[i] == b1[i] && n2[i] == b2[i];
    }
  }

  /** Exports that land in different files can be done in either order. */
  lemma ExportsToDifferentFilesCommute(files: Files, t1: Transaction, b1: string, t2: Transaction, b2: string)
    requires FileName(b1, t1.status) != FileName(b2, t2.status)
    ensures ExportTransaction(ExportTransaction(files, t1, b1), t2, b2)
         == ExportTransaction(ExportTransaction(files, t2, b2), t1, b1)
  {
  }
  /** Seen through a later load, an append adds `rec` at the end of file
      `name` and leaves what every other file yields as it was. */
  lemma AppendedRecords(before: Files, after: Files, name: string, rec: Record)
    requires Appended(before, after, name, rec)
    ensures ExistingRecords(after, name) == ExistingRecords(before, name) + [rec]
    ensures forall n :: n != name ==> ExistingRecords(after, n) == ExistingRecords(before, n)
  {
  }
}

=== FILE: generator.dfy ===
/** The transaction generator: it draws random transactions over a fixed list
    of account ids into a buffer that the orchestrator empties in one step.
    Every random number it would draw is a parameter. */
module Generator {
  import opened Base
  import opened Transactions

  datatype Generator = Generator(accountIds: seq<string>, buffer: seq<Transaction>)

  const MinAmount: int := 50
  /** Bound handed to the amount draw: the offset lies in [0, AmountSpan). */
  const AmountSpan: int := 450
  const TypeCount: int := 3

  /** The random numbers one call consumes: the source index, the type index,
      the amount offset, the target indices tried in turn (TRANSFER only), and
      the creation instant. */
  datatype Draws = Draws(fromIndex: nat, typeIndex: nat, amountOffset: nat, targetIndices: seq<nat>, now: Timestamp)

  /** `TransactionType.values()` in declaration order. */
  function TypeAt(i: nat): (t: TransactionType)
    requires i < TypeCount
    ensures i == 0 <==> t == Deposit
    ensures i == 2 <==> t == Transfer
  {
    if i == 0 then Deposit else if i == 1 then Withdrawal else Transfer
  }

  /** Every draw lies in the range the random source produces. */
  predicate DrawsInRange(ids: seq<string>, d: Draws) {
    && d.fromIndex < |ids|
    && d.typeIndex < TypeCount
    && d.amountOffset < AmountSpan
    && forall i :: 0 <= i < |d.targetIndices| ==> d.targetIndices[i] < |ids|
  }

  /** A TRANSFER's resampling loop ends within the given target draws, that is
      some draw names an id other than the source. With fewer than two
      distinct ids no such draw exists and the call never returns. */
  predicate TargetReached(ids: seq<string>, d: Draws)
    requires DrawsInRange(ids, d)
  {
    TypeAt(d.typeIndex) == Transfer ==>
      exists i :: 0 <= i < |d.targetIndices| && ids[d.targetIndices[i]] != ids[d.fromIndex]
  }

  /** What a generated transaction looks like: PENDING, amount in [50, 499],
      source among the ids, and a target among the ids different from the
      source exactly when it is a TRANSFER. */
  predicate WellGenerated(ids: seq<string>, tx: Transaction) {
    && tx.status == Pending
    && MinAmount <= tx.amount < MinAmount + AmountSpan
    && tx.accountId in ids
    && (tx.txType == Transfer ==>
          tx.targetAccountId.Some? && tx.targetAccountId.value in ids
          && tx.targetAccountId.value != tx.accountId)
    && (tx.txType != Transfer ==> tx.targetAccountId == None)
  }

  /** Everything in the buffer was generated over the generator's ids. */
  predicate Valid(g: Generator) {
    forall i :: 0 <= i < |g.buffer| ==> WellGenerated(g.accountIds, g.buffer[i])
  }

  /** A generator over `ids` with an empty buffer. */
  function NewGenerator(ids: seq<string>): (g: Generator)
    ensures g.accountIds == ids && g.buffer == [] && Valid(g)
  {
    Generator(ids, [])
  }

  /** The do-while resampling loop: the position of the first target draw that
      names an id other than `from`. */
  function FirstOther(ids: seq<string>, from: string, draws: seq<nat>): (k: nat)
    requires forall i :: 0 <= i < |draws| ==> draws[i] < |ids|
    requires exists i :: 0 <= i < |draws| && ids[draws[i]] != from
    ensures k < |draws| && ids[draws[k]] != from
    ensures forall j :: 0 <= j < k ==> ids[draws[j]] == from
    decreases |draws|
  {
    if ids[draws[0]] != from then 0
    else
      var rest := draws[1..];
      assert exists i :: 0 <= i < |rest| && ids[rest[i]] != from by {
        var i :| 0 <= i < |draws| && ids[draws[i]] != from;
        assert i != 0 && ids[rest[i - 1]] != from;
      }
      1 + FirstOther(ids, from, rest)
  }

  /** The transaction one call builds from its draws. */
  function Build(ids: seq<string>, d: Draws): (tx: Transaction)
    requires DrawsInRange(ids, d) && TargetReached(ids, d)
    ensures WellGenerated(ids, tx)
    ensures tx.accountId == ids[d.fromIndex] && tx.txType == TypeAt(d.typeIndex)
    ensures tx.amount == MinAmount + d.amountOffset && tx.timestamp == d.now
    ensures tx.txType == Transfer ==>
              tx.targetAccountId == Some(ids[d.targetIndices[FirstOther(ids, ids[d.fromIndex], d.targetIndices)]])
    ensures tx.txType != Transfer ==> tx.targetAccountId == None
  {
    var from := ids[d.fromIndex];
    var t := TypeAt(d.typeIndex);
    var amount := MinAmount + d.amountOffset;
    if t == Transfer then
      var to := ids[d.targetIndices[FirstOther(ids, from, d.targetIndices)]];
      NewTransfer(from, amount, t, Some(to), d.now).value
    else
      NewTransaction(from, amount, t, d.now)
  }

  /** Generates one transaction and appends it to the buffer. With no account
      ids the first draw throws. */
  function GenerateRandomTransaction(g: Generator, d: Draws): (r: Result<Generator>)
    requires |g.accountIds| > 0 ==> DrawsInRange(g.accountIds, d) && TargetReached(g.accountIds, d)
    ensures r.Ok? <==> |g.accountIds| > 0
    ensures r.Ok? ==> r.value.accountIds == g.accountIds
    ensures r.Ok? ==> |r.value.buffer| == |g.buffer| + 1 && r.value.buffer[..|g.buffer|] == g.buffer
    ensures r.Ok? ==> r.value.buffer == g.buffer + [Build(g.accountIds, d)]
    ensures r.Ok? ==> WellGenerated(g.accountIds, r.value.buffer[|g.buffer|])
    ensures r.Ok? && Valid(g) ==> Valid(r.value)
  {
    if |g.accountIds| == 0 then Err("bound must be positive")
    else Ok(g.(buffer := g.buffer + [Build(g.accountIds, d)]))
  }

  /** The batch handed out and the generator left behind. */
  datatype Retrieved = Retrieved(batch: seq<Transaction>, generator: Generator)

  /** Hands out the buffer's contents in order and empties it in one step. */
  function RetrieveAndClearBuffer(g: Generator): (r: Retrieved)
    ensures r.batch == g.buffer
    ensures r.generator.buffer == [] && r.generator.accountIds == g.accountIds
    ensures Valid(r.generator)
  {
    Retrieved(g.buffer, g.(buffer := []))
  }

  /** A second retrieval right after the first hands out nothing and changes
      nothing. */
  lemma RetrieveTwice(g: Generator)
    ensures RetrieveAndClearBuffer(RetrieveAndClearBuffer(g).generator).batch == []
    ensures RetrieveAndClearBuffer(RetrieveAndClearBuffer(g).generator).generator
         == RetrieveAndClearBuffer(g).generator
  {
  }

  /** Every list of draws fits the ids. */
  predicate AllDrawsFit(ids: seq<string>, ds: seq<Draws>) {
    forall i :: 0 <= i < |ds| ==> DrawsInRange(ids, ds[i]) && TargetReached(ids, ds[i])
  }

  /** Calls the generator once per element of `ds`, in order. */
  function GenerateMany(g: Generator, ds: seq<Draws>): (r: Generator)
    requires |g.accountIds| > 0 && AllDrawsFit(g.accountIds, ds)
    ensures r.accountIds == g.accountIds
    ensures |r.buffer| == |g.buffer| + |ds| && r.buffer[..|g.buffer|] == g.buffer
    ensures forall i :: 0 <= i < |ds| ==> r.buffer[|g.buffer| + i] == Build(g.accountIds, ds[i])
    ensures forall i :: |g.buffer| <= i < |r.buffer| ==> WellGenerated(g.accountIds, r.buffer[i])
    decreases |ds|
  {
    if ds == [] then g
    else GenerateMany(GenerateRandomTransaction(g, ds[0]).value, ds[1..])
  }
}

=== FILE: monitor.dfy ===
/** The third-party validation gate applied to every transaction before it
    touches an account. */
module Monitor {
  import opened Transactions

  /** Rejects a non-positive amount (FAILED) and accepts any other (COMPLETED),
      whatever the status was before; only the status changes. */
  function MonitorTransaction(tx: Transaction): (r: Transaction)
    ensures r == SetStatus(tx, r.status)
    ensures r.status == Failed <==> tx.amount <= 0
    ensures r.status == Completed <==> tx.amount > 0
  {
    if tx.amount <= 0 then SetStatus(tx, Failed) else SetStatus(tx, Completed)
  }

  /** Validating twice is validating once. */
  lemma MonitorIdempotent(tx: Transaction)
    ensures MonitorTransaction(MonitorTransaction(tx)) == MonitorTransaction(tx)
  {
  }

  /** The verdict depends only on the amount, not on the status the
      transaction arrived with. */
  lemma MonitorIgnoresPriorStatus(tx: Transaction, s: TransactionStatus)
    ensures MonitorTransaction(SetStatus(tx, s)) == MonitorTransaction(tx)
  {
  }
}

=== FILE: processor.dfy ===
/** The work one pool thread does for one dequeued transaction: look up the
    source account, validate, apply, export. Thread pool, dispatch loop and
    locks are not modelled; the step is atomic. */
module Processor {
  import opened Base
  import opened Transactions
  import Accounts
  import opened Registry
  import opened Monitor
  import opened Exporter

  /** Registry and transaction after applying a validated transaction. */
  datatype Applied = Applied(registry: Registry, tx: Transaction)

  /** The outcome of one worker step: the registry, the transaction with its
      final status, the export directory, and the file exported to, if any. */
  datatype StepResult = StepResult(registry: Registry, tx: Transaction, files: Files, exportedTo: Option<string>)

  /** The account a transaction credits, when it is a TRANSFER whose target is
      registered. */
  function CreditedKey(reg: Registry, tx: Transaction): Option<string> {
    if tx.txType == Transfer && tx.targetAccountId.Some? && tx.targetAccountId.value in reg
    then tx.targetAccountId else None
  }

  /** Only `k` and the credited account can change. */
  predicate OthersUnchanged(reg: Registry, reg': Registry, k: string, tx: Transaction) {
    forall j :: j in reg && j != k && Some(j) != CreditedKey(reg, tx) ==> j in reg' && reg'[j] == reg[j]
  }

  /** Registry keys, ids and banks are fixed; only balances move. */
  predicate SameAccounts(reg: Registry, reg': Registry) {
    reg'.Keys == reg.Keys && forall k :: k in reg ==> Accounts.SameOwner(reg'[k], reg[k])
  }

  /** Applies a transaction of the given type to the registry. A TRANSFER whose
      target is missing fails. A TRANSFER to the source itself debits the
      account and then deposits into the same account. */
  function Apply(reg: Registry, tx: Transaction): (r: Applied)
    requires tx.accountId in reg
    ensures SameAccounts(reg, r.registry)
    ensures OthersUnchanged(reg, r.registry, tx.accountId, tx)
    ensures r.tx == SetStatus(tx, r.tx.status)
    ensures tx.status == Completed ==> r.tx.status == Completed || r.tx.status == Failed
    ensures tx.txType == Deposit ==> r.tx == tx
    ensures tx.txType == Transfer && CreditedKey(reg, tx).None? ==> r.registry == reg && r.tx.status == Failed
    // a TRANSFER between two different registered accounts
    ensures CreditedKey(reg, tx).Some? && CreditedKey(reg, tx).value != tx.accountId ==>
              var src, dst := tx.accountId, CreditedKey(reg, tx).value;
              reg[src].balance >= tx.amount ==>
                && r.tx == tx
                && SameModulo(r.registry[src].balance, reg[src].balance - tx.amount)
                && SameModulo(r.registry[dst].balance, reg[dst].balance + tx.amount)
    ensures CreditedKey(reg, tx).Some? && CreditedKey(reg, tx).value != tx.accountId ==>
              reg[tx.accountId].balance < tx.amount ==> r.registry == reg && r.tx == SetStatus(tx, Failed)
  {
    var src := tx.accountId;
    var account := reg[src];
    match tx.txType
    case Deposit =>
      Applied(reg[src := Accounts.Deposit(account, tx.amount)], tx)
    case Withdrawal =>
      var w := Accounts.Withdraw(account, tx);
      Applied(reg[src := w.account], w.tx)
    case Transfer =>
      if CreditedKey(reg, tx).None? then Applied(reg, SetStatus(tx, Failed))
      else
        var dst := tx.targetAccountId.value;
        var t := Accounts.Transfer(account, tx.amount, reg[dst], tx);
        if dst != src then Applied(reg[src := t.source][dst := t.target], t.tx)
        else if account.balance >= tx.amount then Applied(reg[src := Accounts.Deposit(t.source, tx.amount)], t.tx)
        else Applied(reg[src := t.source], t.tx)
  }

  /** The body of the worker task for `bankName`'s processor. */
  function WorkerStep(reg: Registry, files: Files, tx: Transaction, bankName: string): (r: StepResult)
    ensures SameAccounts(reg, r.registry)
    ensures r.tx == SetStatus(tx, r.tx.status)
    // an unknown source account is dropped without a trace
    ensures tx.accountId !in reg ==> r == StepResult(reg, tx, files, None)
    // the gate fails it: no balance moves, nothing is exported
    ensures tx.accountId in reg && tx.amount <= 0 ==>
              r.registry == reg && r.files == files && r.exportedTo == None && r.tx.status == Failed
    // past the gate: terminal status, exported exactly once to the file the status selects
    ensures tx.accountId in reg && tx.amount > 0 ==>
              && (r.tx.status == Completed || r.tx.status == Failed)
              && r.exportedTo == Some(FileName(bankName, r.tx.status))
              && Appended(files, r.files, FileName(bankName, r.tx.status), ToRecord(r.tx))
    ensures tx.accountId in reg ==> OthersUnchanged(reg, r.registry, tx.accountId, tx)
  {
    if tx.accountId !in reg then StepResult(reg, tx, files, None)
    else
      var checked := MonitorTransaction(tx);
      if checked.status != Completed then StepResult(reg, checked, files, None)
      else
        var applied := Apply(reg, checked);
        var name := FileName(bankName, applied.tx.status);
        StepResult(applied.registry, applied.tx, ExportToFile(files, applied.tx, name), Some(name))
  }

  /** A validated DEPOSIT credits the source, completes and goes to the bank's
      completed file. */
  lemma WorkerDeposit(reg: Registry, files: Files, tx: Transaction, bankName: string)
    requires tx.accountId in reg && tx.amount > 0 && tx.txType == Deposit
    ensures var r := WorkerStep(reg, files, tx, bankName);
            && r.tx.status == Completed
            && r.exportedTo == Some(bankName + CompletedSuffix)
            && SameModulo(r.registry[tx.accountId].balance, reg[tx.accountId].balance + tx.amount)
            && (InInt32(reg[tx.accountId].balance + tx.amount) ==>
                  r.registry[tx.accountId].balance == reg[tx.accountId].balance + tx.amount)
  {
  }

  /** A validated WITHDRAWAL debits exactly when the balance covers it, and is
      exported either way. */
  lemma WorkerWithdrawal(reg: Registry, files: Files, tx: Transaction, bankName: string)
    requires tx.accountId in reg && tx.amount > 0 && tx.txType == Withdrawal
    ensures var r := WorkerStep(reg, files, tx, bankName);
            var b := reg[tx.accountId].balance;
            && (b >= tx.amount ==> r.tx.status == Completed && r.registry[tx.accountId].balance == b - tx.amount)
            && (b < tx.amount ==> r.tx.status == Failed && r.registry == reg)
            && r.exportedTo.Some?
  {
  }

  /** A validated TRANSFER with no registered target fails, moves nothing and
      is still exported, to the failed file. */
  lemma WorkerTransferMissingTarget(reg: Registry, files: Files, tx: Transaction, bankName: string)
    requires tx.accountId in reg && tx.amount > 0 && tx.txType == Transfer
    requires tx.targetAccountId.None? || tx.targetAccountId.value !in reg
    ensures var r := WorkerStep(reg, files, tx, bankName);
            && r.tx.status == Failed
            && r.registry == reg
            && r.exportedTo == Some(bankName + FailedSuffix)
  {
  }

  /** A validated TRANSFER to another registered account: when the source
      covers it, the source is debited, the target credited and the transfer
      completes; otherwise it fails, moves nothing and goes to the failed
      file. */
  lemma WorkerTransfer(reg: Registry, files: Files, tx: Transaction, bankName: string)
    requires tx.accountId in reg && tx.amount > 0 && tx.txType == Transfer
    requires tx.targetAccountId.Some? && tx.targetAccountId.value in reg
    requires tx.targetAccountId.value != tx.accountId
    ensures var r := WorkerStep(reg, files, tx, bankName);
            var src, dst := tx.accountId, tx.targetAccountId.value;
            reg[src].balance >= tx.amount ==>
              && r.tx.status == Completed
              && r.registry[src].balance == reg[src].balance - tx.amount
              && SameModulo(r.registry[dst].balance, reg[dst].balance + tx.amount)
              && r.exportedTo == Some(bankName + CompletedSuffix)
    ensures var r := WorkerStep(reg, files, tx, bankName);
            reg[tx.accountId].balance < tx.amount ==>
              && r.tx.status == Failed
              && r.registry == reg
              && r.exportedTo == Some(bankName + FailedSuffix)
  {
  }

  /** A TRANSFER from an account to itself leaves the registry as it was. */
  lemma SelfTransferKeepsRegistry(reg: Registry, tx: Transaction)
    requires tx.accountId in reg && tx.txType == Transfer && tx.targetAccountId == Some(tx.accountId)
    ensures Apply(reg, tx).registry == reg
  {
    var a := reg[tx.accountId];
    if a.balance >= tx.amount {
      WrapSubAdd(a.balance, tx.amount);
      assert Apply(reg, tx).registry[tx.accountId] == a;
    }
  }

  /** No credit in the step can wrap around. */
  predicate NoOverflow(reg: Registry, tx: Transaction) {
    forall k :: k in reg ==> InInt32(reg[k].balance + tx.amount)
  }

  /** How one step changes the money in the registry: a completed DEPOSIT adds
      the amount, a completed WITHDRAWAL removes it, and everything else, a
      TRANSFER in particular, keeps the total. */
  lemma WorkerTotal(reg: Registry, files: Files, tx: Transaction, bankName: string)
    requires NoOverflow(reg, tx)
    ensures var r := WorkerStep(reg, files, tx, bankName);
            && (tx.accountId in reg && tx.amount > 0 && tx.txType == Deposit ==>
                  Total(r.registry) == Total(reg) + tx.amount)
            && (tx.accountId in reg && tx.amount > 0 && tx.txType == Withdrawal && r.tx.status == Completed ==>
                  Total(r.registry) == Total(reg) - tx.amount)
            && (tx.accountId !in reg || tx.amount <= 0 || tx.txType == Transfer || r.tx.status == Failed ==>
                  Total(r.registry) == Total(reg))
  {
    var r := WorkerStep(reg, files, tx, bankName);
    if tx.accountId in reg && tx.amount > 0 {
      var src := tx.accountId;
      var a := reg[src];
      match tx.txType
      case Deposit =>
        TotalUpdate(reg, src, Accounts.Deposit(a, tx.amount));
      case Withdrawal =>
        TotalUpdate(reg, src, r.registry[src]);
        assert r.registry == reg[src := r.registry[src]];
      case Transfer =>
        if CreditedKey(reg, tx).Some? {
          var dst := tx.targetAccountId.value;
          if dst == src {
            SelfTransferKeepsRegistry(reg, MonitorTransaction(tx));
          } else if a.balance >= tx.amount {
            var t := Accounts.Transfer(a, tx.amount, reg[dst], MonitorTransaction(tx));
            var mid := reg[src := t.source];
            assert InInt32(reg[dst].balance + tx.amount);
            assert t.source.balance + t.target.balance == a.balance + reg[dst].balance;
            assert mid[dst] == reg[dst];
            TotalUpdate(reg, src, t.source);
            TotalUpdate(mid, dst, t.target);
            assert r.registry == mid[dst := t.target];
          } else {
            assert r.registry == reg[src := a][dst := reg[dst]];
            assert r.registry == reg;
          }
        }
    }
  }

  /** From non-negative balances whose total leaves room for the amount, a step
      never produces a negative balance: debits are checked and credits cannot
      wrap. */
  lemma WorkerKeepsBalancesNonNegative(reg: Registry, files: Files, tx: Transaction, bankName: string)
    requires forall k :: k in reg ==> reg[k].balance >= 0
    requires Total(reg) + tx.amount <= IntMax
    ensures var r := WorkerStep(reg, files, tx, bankName);
            forall k :: k in r.registry ==> r.registry[k].balance >= 0
  {
    forall k | k in reg
      ensures reg[k].balance + tx.amount <= IntMax
    {
      BalanceAtMostTotal(reg, k);
    }
    var r := WorkerStep(reg, files, tx, bankName);
    if tx.accountId in reg && tx.amount > 0 && tx.txType == Transfer && CreditedKey(reg, tx).Some?
       && tx.targetAccountId.value == tx.accountId {
      SelfTransferKeepsRegistry(reg, MonitorTransaction(tx));
    }
  }
  /** The money one handled transaction adds to a registry with the given
      accounts: a completed DEPOSIT from a known account adds its amount, a
      completed WITHDRAWAL removes it, and anything else moves nothing in
      total. */
  function NetEffect(keys: set<string>, tx: Transaction): (n: int)
    ensures tx.status != Completed || tx.accountId !in keys || tx.amount <= 0 ==> n == 0
    ensures tx.amount > 0 ==> -tx.amount <= n <= tx.amount
  {
    if tx.accountId in keys && tx.amount > 0 && tx.status == Completed then
      match tx.txType
      case Deposit => tx.amount as int
      case Withdrawal => -(tx.amount as int)
      case Transfer => 0
    else 0
  }

  /** From non-negative balances with room for the amount, one step changes the
      money in the registry by exactly the net effect of the transaction it
      hands back, and no balance turns negative. */
  lemma {:induction false} WorkerNet(reg: Registry, files: Files, tx: Transaction, bankName: string)
    requires forall k :: k in reg ==> reg[k].balance >= 0
    requires Total(reg) + tx.amount <= IntMax
    ensures var r := WorkerStep(reg, files, tx, bankName);
            && Total(r.registry) == Total(reg) + NetEffect(reg.Keys, r.tx)
            && forall k :: k in r.registry ==> r.registry[k].balance >= 0
  {
    forall k | k in reg
      ensures InInt32(reg[k].balance + tx.amount)
    {
      BalanceAtMostTotal(reg, k);
    }
    assert NoOverflow(reg, tx);
    WorkerTotal(reg, files, tx, bankName);
    WorkerKeepsBalancesNonNegative(reg, files, tx, bankName);
    if tx.accountId in reg && tx.amount > 0 && tx.txType == Deposit {
      WorkerDeposit(reg, files, tx, bankName);
    }
  }
}

=== FILE: queue.dfy ===
/** A bank's bounded FIFO inbox of transactions. Where the Java program blocks (adding to a
    full queue, taking from an empty one), the model has a precondition. */
module Queues {
  import opened Base
  import opened Transactions

  datatype BoundedQueue = BoundedQueue(capacity: nat, items: seq<Transaction>) {
    /** The queue never holds more than its capacity, which is positive. */
    predicate Valid() {
      0 < capacity && |items| <= capacity
    }
  }

  /** Creates an empty queue; a capacity that is not positive is refused with
      an exception. */
  function NewQueue(capacity: int): (r: Result<BoundedQueue>)
    ensures r.Ok? <==> capacity > 0
    ensures r.Ok? ==> r.value.Valid() && r.value.items == [] && r.value.capacity == capacity
  {
    if capacity <= 0 then Err("capacity must be positive") else Ok(BoundedQueue(capacity, []))
  }

  /** Appends at the tail; callable only when there is room. */
  function Add(q: BoundedQueue, x: Transaction): (r: BoundedQueue)
    requires q.Valid() && |q.items| < q.capacity
    ensures r.Valid() && r.capacity == q.capacity
    ensures |r.items| == |q.items| + 1
    ensures r.items[..|q.items|] == q.items && r.items[|q.items|] == x
  {
    BoundedQueue(q.capacity, q.items + [x])
  }

  /** The head element together with the queue that remains. */
  datatype Taken = Taken(head: Transaction, rest: BoundedQueue)

  /** Removes the head, the earliest added element still present; callable
      only on a non-empty queue. */
  function Take(q: BoundedQueue): (r: Taken)
    requires q.Valid() && |q.items| > 0
    ensures r.rest.Valid() && r.rest.capacity == q.capacity
    ensures [r.head] + r.rest.items == q.items
  {
    Taken(q.items[0], BoundedQueue(q.capacity, q.items[1..]))
  }

  /** The number of elements waiting. */
  function Size(q: BoundedQueue): (n: nat)
    requires q.Valid()
    ensures n <= q.capacity
    ensures n == 0 <==> q.items == []
  {
    |q.items|
  }

  /** One call on the queue. */
  datatype Op = Put(x: Transaction) | TakeOne

  /** What a sequence of calls returns, and the queue it leaves. */
  datatype Trace = Trace(taken: seq<Transaction>, final: BoundedQueue)

  /** Runs calls in order; `None` when a call would block (a put on a full
      queue or a take on an empty one). */
  function Run(q: BoundedQueue, ops: seq<Op>): Option<Trace>
    requires q.Valid()
    decreases |ops|
  {
    if ops == [] then Some(Trace([], q))
    else match ops[0]
      case Put(x) =>
        if |q.items| == q.capacity then None
        else Run(Add(q, x), ops[1..])
      case TakeOne =>
        if |q.items| == 0 then None
        else
          var t := Take(q);
          match Run(t.rest, ops[1..])
          case None => None
          case Some(tr) => Some(Trace([t.head] + tr.taken, tr.final))
  }

  /** The elements the calls put, in order. */
  function Puts(ops: seq<Op>): seq<Transaction> {
    if ops == [] then []
    else match ops[0]
      case Put(x) => [x] + Puts(ops[1..])
      case TakeOne => Puts(ops[1..])
  }

  /** The number of takes among the calls. */
  function Takes(ops: seq<Op>): nat {
    if ops == [] then 0
    else (if ops[0].TakeOne? then 1 else 0) + Takes(ops[1..])
  }

  /** FIFO: what was taken followed by what remains is exactly what was there
      followed by what was put, in the same order; the size is the start size
      plus puts minus takes, and the capacity is never exceeded. */
  lemma {:induction false} RunIsFifo(q: BoundedQueue, ops: seq<Op>)
    requires q.Valid()
    requires Run(q, ops).Some?
    ensures var tr := Run(q, ops).value;
            && tr.final.Valid() && tr.final.capacity == q.capacity
            && tr.taken + tr.final.items == q.items + Puts(ops)
            && |tr.taken| == Takes(ops)
            && Size(tr.final) == Size(q) + |Puts(ops)| - Takes(ops)
    decreases |ops|
  {
    if ops != [] {
      match ops[0]
      case Put(x) =>
        var q' := Add(q, x);
        RunIsFifo(q', ops[1..]);
        assert q'.items + Puts(ops[1..]) == q.items + Puts(ops);
      case TakeOne =>
        var t := Take(q);
        RunIsFifo(t.rest, ops[1..]);
        var tr := Run(t.rest, ops[1..]).value;
        assert [t.head] + tr.taken + tr.final.items == [t.head] + (tr.taken + tr.final.items);
    }
  }
}

=== FILE: registry.dfy ===
/** The shared account registry: account id to account. Each key names its own
    account record (two keys never share one). */
module Registry {
  import opened Base
  import opened Accounts

  type Registry = map<string, Account>

  /** Some element of a non-empty set, used to walk a set one key at a time. */
  ghost function Pick(keys: set<string>): (k: string)
    requires keys != {}
    ensures k in keys
  {
    var k :| k in keys; k
  }

  /** The sum of the balances held under `keys`. */
  ghost function SumOver(reg: Registry, keys: set<string>): int
    requires keys <= reg.Keys
    decreases keys
  {
    if keys == {} then 0
    else
      var k := Pick(keys);
      reg[k].balance + SumOver(reg, keys - {k})
  }

  /** All money held in the registry. */
  ghost function Total(reg: Registry): int {
    SumOver(reg, reg.Keys)
  }

  /** The sum does not depend on which key is taken out first. */
  lemma {:induction false} SumOverRemove(reg: Registry, keys: set<string>, k: string)
    requires k in keys && keys <= reg.Keys
    ensures SumOver(reg, keys) == reg[k].balance + SumOver(reg, keys - {k})
    decreases keys
  {
    var j := Pick(keys);
    if j != k {
      SumOverRemove(reg, keys - {j}, k);
      SumOverRemove(reg, keys - {k}, j);
      assert keys - {j} - {k} == keys - {k} - {j};
    }
  }

  /** Sums over keys whose balances agree are equal. */
  lemma {:induction false} SumOverSame(reg: Registry, reg': Registry, keys: set<string>)
    requires keys <= reg.Keys && keys <= reg'.Keys
    requires forall k :: k in keys ==> reg[k].balance == reg'[k].balance
    ensures SumOver(reg, keys) == SumOver(reg', keys)
    decreases keys
  {
    if keys != {} {
      var k := Pick(keys);
      SumOverSame(reg, reg', keys - {k});
      SumOverRemove(reg', keys, k);
    }
  }

  /** A sum of non-negative balances is at least each of them. */
  lemma {:induction false} SumOverBounds(reg: Registry, keys: set<string>, k: string)
    requires k in keys && keys <= reg.Keys
    requires forall j :: j in keys ==> reg[j].balance >= 0
    ensures reg[k].balance <= SumOver(reg, keys)
  {
    SumOverRemove(reg, keys, k);
    SumOverNonNegative(reg, keys - {k});
  }

  lemma {:induction false} SumOverNonNegative(reg: Registry, keys: set<string>)
    requires keys <= reg.Keys
    requires forall j :: j in keys ==> reg[j].balance >= 0
    ensures SumOver(reg, keys) >= 0
    decreases keys
  {
    if keys != {} {
      SumOverNonNegative(reg, keys - {Pick(keys)});
    }
  }

  /** Replacing one account changes the total by exactly the change in that
      account's balance. */
  lemma TotalUpdate(reg: Registry, k: string, a: Account)
    requires k in reg
    ensures Total(reg[k := a]) == Total(reg) - reg[k].balance + a.balance
  {
    var reg' := reg[k := a];
    assert reg'.Keys == reg.Keys;
    SumOverRemove(reg, reg.Keys, k);
    SumOverRemove(reg', reg.Keys, k);
    SumOverSame(reg, reg', reg.Keys - {k});
  }

  /** With no negative balance, no single balance exceeds the total. */
  lemma BalanceAtMostTotal(reg: Registry, k: string)
    requires k in reg
    requires forall j :: j in reg ==> reg[j].balance >= 0
    ensures reg[k].balance <= Total(reg)
  {
    SumOverBounds(reg, reg.Keys, k);
  }
}

=== FILE: simulator.dfy ===
/** The orchestrator: the fixed configuration and the steps of one simulation
    cycle (seed, generate, route, process, snapshot and reset), run one after
    the other. Sleeps, console output and the endless loop are not modelled. */
module Simulator {
  import opened Base
  import opened Transactions
  import Accounts
  import opened Registry
  import opened Queues
  import Gen = Generator
  import opened Exporter
  import opened Processor

  const Account1: string := "Account_1"
  const Account2: string := "Account_2"
  const Account3: string := "Account_3"
  const Otp: string := "OTP"
  const Kh: string := "KH"
  const QueueCapacity: nat := 10
  const TransactionsPerCycle: nat := 5
  /** The money the start-of-cycle deposits bring in: 1000 + 1000 + 501. */
  const SeedMoney: int := 2501
  /** The largest amount the generator draws. */
  const LargestAmount: int := Gen.MinAmount + Gen.AmountSpan - 1

  type BankQueues = map<string, BoundedQueue>

  datatype BankSimulator = BankSimulator(
    accounts: Registry,
    bankQueues: BankQueues,
    generator: Gen.Generator,
    balanceQueue: seq<int>)

  /** `order` lists every key of `keys` exactly once: one possible iteration
      order of a hash map's key set. */
  predicate Enumerates(order: seq<string>, keys: set<string>) {
    && (forall i, j :: 0 <= i < j < |order| ==> order[i] != order[j])
    && (forall i :: 0 <= i < |order| ==> order[i] in keys)
    && (forall k :: k in keys ==> k in order)
  }

  /** The structure every cycle relies on: accounts are filed under their own
      id, each account's bank has a valid queue, and the generator draws from
      exactly the registered ids. */
  predicate Wired(sim: BankSimulator) {
    && (forall k :: k in sim.accounts ==>
          sim.accounts[k].id == k && sim.accounts[k].bankName in sim.bankQueues)
    && (forall b :: b in sim.bankQueues ==> sim.bankQueues[b].Valid())
    && Enumerates(sim.generator.accountIds, sim.accounts.Keys)
    && Gen.Valid(sim.generator)
  }

  /** Between cycles nothing waits: every bank queue and the generator buffer
      are empty. */
  predicate Idle(sim: BankSimulator) {
    && (forall b :: b in sim.bankQueues ==> sim.bankQueues[b].items == [])
    && sim.generator.buffer == []
  }

  function InitialAccounts(): (reg: Registry)
    ensures reg.Keys == {Account1, Account2, Account3}
    ensures reg[Account1].bankName == Otp && reg[Account2].bankName == Kh && reg[Account3].bankName == Otp
    ensures forall k :: k in reg ==> reg[k].id == k && reg[k].balance == 0
  {
    map[Account1 := Accounts.NewAccount(Account1, Otp),
        Account2 := Accounts.NewAccount(Account2, Kh),
        Account3 := Accounts.NewAccount(Account3, Otp)]
  }

  /** The constructor: three empty accounts over two banks, one empty queue of
      capacity 10 per bank, a generator over the account ids in the key set's
      iteration order `idOrder`, and an empty balance channel. */
  function Setup(idOrder: seq<string>): (sim: BankSimulator)
    requires Enumerates(idOrder, {Account1, Account2, Account3})
    ensures Wired(sim) && Idle(sim)
    ensures sim.accounts.Keys == {Account1, Account2, Account3}
    ensures forall k :: k in sim.accounts ==> sim.accounts[k].balance == 0
    ensures sim.bankQueues.Keys == {Otp, Kh}
    ensures forall b :: b in sim.bankQueues ==> sim.bankQueues[b].capacity == QueueCapacity
    ensures sim.generator.accountIds == idOrder && sim.balanceQueue == []
  {
    var q := BoundedQueue(QueueCapacity, []);
    BankSimulator(InitialAccounts(), map[Otp := q, Kh := q], Gen.NewGenerator(idOrder), [])
  }

  /** The start-of-cycle deposits: 1000, 1000 and 501 into the three accounts,
      every other account untouched. */
  function Seed(reg: Registry): (r: Registry)
    requires Account1 in reg && Account2 in reg && Account3 in reg
    ensures SameAccounts(reg, r)
    ensures forall k :: k in reg && k != Account1 && k != Account2 && k != Account3 ==> r[k] == reg[k]
    ensures SameModulo(r[Account1].balance, reg[Account1].balance + 1000)
    ensures SameModulo(r[Account2].balance, reg[Account2].balance + 1000)
    ensures SameModulo(r[Account3].balance, reg[Account3].balance + 501)
    ensures reg[Account1].balance == 0 && reg[Account2].balance == 0 && reg[Account3].balance == 0 ==>
              r[Account1].balance == 1000 && r[Account2].balance == 1000 && r[Account3].balance == 501
  {
    var r1 := reg[Account1 := Accounts.Deposit(reg[Account1], 1000)];
    var r2 := r1[Account2 := Accounts.Deposit(r1[Account2], 1000)];
    r2[Account3 := Accounts.Deposit(r2[Account3], 501)]
  }

  /** From non-negative balances with room for it, seeding adds exactly
      `SeedMoney` to the money in the registry and keeps every balance
      non-negative. */
  lemma SeedAddsMoney(reg: Registry)
    requires Account1 in reg && Account2 in reg && Account3 in reg
    requires forall k :: k in reg ==> reg[k].balance >= 0
    requires Total(reg) + SeedMoney <= IntMax
    ensures Total(Seed(reg)) == Total(reg) + SeedMoney
    ensures forall k :: k in Seed(reg) ==> Seed(reg)[k].balance >= 0
  {
    BalanceAtMostTotal(reg, Account1);
    var r1 := reg[Account1 := Accounts.Deposit(reg[Account1], 1000)];
    TotalUpdate(reg, Account1, r1[Account1]);
    BalanceAtMostTotal(r1, Account2);
    var r2 := r1[Account2 := Accounts.Deposit(r1[Account2], 1000)];
    TotalUpdate(r1, Account2, r2[Account2]);
    BalanceAtMostTotal(r2, Account3);
    var r3 := r2[Account3 := Accounts.Deposit(r2[Account3], 501)];
    TotalUpdate(r2, Account3, r3[Account3]);
    assert Seed(reg) == r3;
  }

  /** Every transaction's source account is registered. */
  predicate SourcesKnown(reg: Registry, batch: seq<Transaction>) {
    forall i :: 0 <= i < |batch| ==> batch[i].accountId in reg
  }

  /** The transactions of `batch` whose source account belongs to `bankName`,
      in batch order. */
  function ForBank(reg: Registry, batch: seq<Transaction>, bankName: string): (r: seq<Transaction>)
    requires SourcesKnown(reg, batch)
    ensures |r| <= |batch|
    decreases |batch|
  {
    if batch == [] then []
    else
      var rest := ForBank(reg, batch[1..], bankName);
      if reg[batch[0].accountId].bankName == bankName then [batch[0]] + rest else rest
  }

  /** A bank's share depends only on which bank each source account is
      filed under. */
  lemma {:induction false} ForBankSameBanks(reg: Registry, reg': Registry, batch: seq<Transaction>, b: string)
    requires SourcesKnown(reg, batch)
    requires forall k :: k in reg ==> k in reg' && reg'[k].bankName == reg[k].bankName
    ensures SourcesKnown(reg', batch)
    ensures ForBank(reg', batch, b) == ForBank(reg, batch, b)
    decreases |batch|
  {
    if batch != [] {
      ForBankSameBanks(reg, reg', batch[1..], b);
    }
  }

  /** Routing never blocks: each bank's queue has room for its share. */
  predicate RoomFor(reg: Registry, queues: BankQueues, batch: seq<Transaction>)
    requires SourcesKnown(reg, batch)
  {
    && (forall i :: 0 <= i < |batch| ==> reg[batch[i].accountId].bankName in queues)
    && (forall b :: b in queues ==>
          queues[b].Valid() && |queues[b].items| + |ForBank(reg, batch, b)| <= queues[b].capacity)
  }

  /** The first transaction of a batch joins its bank's share first. */
  lemma ForBankCons(reg: Registry, batch: seq<Transaction>, b: string)
    requires SourcesKnown(reg, batch) && batch != []
    ensures SourcesKnown(reg, batch[1..])
    ensures ForBank(reg, batch, b)
         == (if reg[batch[0].accountId].bankName == b then [batch[0]] else []) + ForBank(reg, batch[1..], b)
  {
    assert SourcesKnown(reg, batch[1..]) by {
      forall i | 0 <= i < |batch[1..]|
        ensures batch[1..][i].accountId in reg
      {
        assert batch[1..][i] == batch[i + 1];
      }
    }
  }

  /** The bank queue the head of a batch goes to has room for it. */
  lemma HeadHasRoom(reg: Registry, queues: BankQueues, batch: seq<Transaction>)
    requires SourcesKnown(reg, batch) && RoomFor(reg, queues, batch) && batch != []
    ensures var b := reg[batch[0].accountId].bankName;
            b in queues && queues[b].Valid() && |queues[b].items| < queues[b].capacity
  {
    var b := reg[batch[0].accountId].bankName;
    ForBankCons(reg, batch, b);
  }

  /** Routing the head of a batch leaves room for the rest. */
  lemma RouteHead(reg: Registry, queues: BankQueues, batch: seq<Transaction>, queues': BankQueues)
    requires SourcesKnown(reg, batch) && RoomFor(reg, queues, batch) && batch != []
    requires var b := reg[batch[0].accountId].bankName;
             b in queues && queues[b].Valid() && |queues[b].items| < queues[b].capacity
             && queues' == queues[b := Add(queues[b], batch[0])]
    ensures SourcesKnown(reg, batch[1..])
    ensures RoomFor(reg, queues', batch[1..])
  {
    ForBankCons(reg, batch, reg[batch[0].accountId].bankName);
    forall c | c in queues'
      ensures queues'[c].Valid()
      ensures |queues'[c].items| + |ForBank(reg, batch[1..], c)| <= queues'[c].capacity
    {
      ForBankCons(reg, batch, c);
    }
    forall i | 0 <= i < |batch[1..]|
      ensures reg[batch[1..][i].accountId].bankName in queues'
    {
      assert batch[1..][i] == batch[i + 1];
    }
  }

  /** Routing the head of a batch moves it from the batch's share of bank
      `c` to the end of `c`'s queue, or leaves both alone for another bank. */
  lemma RouteHeadContents(reg: Registry, queues: BankQueues, batch: seq<Transaction>,
                          queues': BankQueues, c: string)
    requires SourcesKnown(reg, batch) && batch != [] && c in queues
    requires var b := reg[batch[0].accountId].bankName;
             b in queues && queues[b].Valid() && |queues[b].items| < queues[b].capacity
             && queues' == queues[b := Add(queues[b], batch[0])]
    ensures SourcesKnown(reg, batch[1..])
    ensures queues[c].items + ForBank(reg, batch, c) == queues'[c].items + ForBank(reg, batch[1..], c)
  {
    ForBankCons(reg, batch, c);
    var rest := ForBank(reg, batch[1..], c);
    if reg[batch[0].accountId].bankName == c {
      assert queues'[c].items == queues[c].items + [batch[0]];
      assert queues[c].items + ([batch[0]] + rest) == (queues[c].items + [batch[0]]) + rest;
    } else {
      assert queues'[c] == queues[c];
    }
  }

  /** Puts each transaction, in batch order, into the queue of its source
      account's bank. Each queue ends with its old contents followed by its
      share of the batch in batch order; no capacity is exceeded. */
  function Route(reg: Registry, queues: BankQueues, batch: seq<Transaction>): (r: BankQueues)
    requires SourcesKnown(reg, batch) && RoomFor(reg, queues, batch)
    ensures r.Keys == queues.Keys
    ensures forall b :: b in queues ==>
              && r[b].Valid() && r[b].capacity == queues[b].capacity
              && r[b].items == queues[b].items + ForBank(reg, batch, b)
    decreases |batch|
  {
    if batch == [] then queues
    else
      HeadHasRoom(reg, queues, batch);
      var b := reg[batch[0].accountId].bankName;
      var queues' := queues[b := Add(queues[b], batch[0])];
      RouteHead(reg, queues, batch, queues');
      forall c | c in queues
        ensures queues[c].items + ForBank(reg, batch, c) == queues'[c].items + ForBank(reg, batch[1..], c)
      {
        RouteHeadContents(reg, queues, batch, queues', c);
      }
      Route(reg, queues', batch[1..])
  }

  /** Registry, export directory and queue after a processor has worked
      through its whole queue, with the transactions as they ended up. */
  datatype Drained = Drained(registry: Registry, files: Files, queue: BoundedQueue, processed: seq<Transaction>)

  /** One processor working through its queue in FIFO order, one worker step
      per transaction: a sequential schedule of the pool. */
  function Drain(reg: Registry, files: Files, q: BoundedQueue, bankName: string): (r: Drained)
    requires q.Valid()
    ensures r.queue.Valid() && r.queue.items == [] && r.queue.capacity == q.capacity
    ensures SameAccounts(reg, r.registry)
    ensures |r.processed| == |q.items|
    decreases |q.items|
  {
    if |q.items| == 0 then Drained(reg, files, q, [])
    else
      var t := Take(q);
      var s := WorkerStep(reg, files, t.head, bankName);
      var rest := Drain(s.registry, s.files, t.rest, bankName);
      Drained(rest.registry, rest.files, rest.queue, [s.tx] + rest.processed)
  }

  /** Draining handles the queued transactions in FIFO order: the i-th one
      handed out is the i-th one queued with only its status set, and a
      transaction from a registered account with a positive amount ends
      COMPLETED or FAILED. */
  lemma {:induction false} DrainProcessed(reg: Registry, files: Files, q: BoundedQueue, bankName: string)
    requires q.Valid()
    ensures var r := Drain(reg, files, q, bankName);
            forall i :: 0 <= i < |q.items| ==> r.processed[i] == SetStatus(q.items[i], r.processed[i].status)
    ensures var r := Drain(reg, files, q, bankName);
            forall i :: 0 <= i < |q.items| && q.items[i].accountId in reg && q.items[i].amount > 0 ==>
              r.processed[i].status == Completed || r.processed[i].status == Failed
    decreases |q.items|
  {
    if |q.items| != 0 {
      var t := Take(q);
      var s := WorkerStep(reg, files, t.head, bankName);
      var rest := Drain(s.registry, s.files, t.rest, bankName);
      assert Drain(reg, files, q, bankName).processed == [s.tx] + rest.processed;
      DrainProcessed(s.registry, s.files, t.rest, bankName);
      assert q.items == [t.head] + t.rest.items;
    }
  }

  /** A transaction as the processor of bank `bankName` handed it back. */
  datatype Handled = Handled(bankName: string, tx: Transaction)

  /** The transactions one processor handed back, labelled with its bank. */
  function Tagged(bankName: string, txs: seq<Transaction>): (hs: seq<Handled>)
    ensures |hs| == |txs|
    ensures forall i :: 0 <= i < |txs| ==> hs[i] == Handled(bankName, txs[i])
  {
    seq(|txs|, i requires 0 <= i < |txs| => Handled(bankName, txs[i]))
  }

  /** The sum of the positive amounts of a run of transactions: the most
      money they can bring in. */
  function Positives(txs: seq<Transaction>): (n: int)
    ensures n >= 0
  {
    if txs == [] then 0
    else (if txs[0].amount > 0 then txs[0].amount as int else 0) + Positives(txs[1..])
  }

  /** The money a run of handled transactions adds to a registry with the
      given accounts. */
  function NetOf(keys: set<string>, hs: seq<Handled>): int {
    if hs == [] then 0 else NetEffect(keys, hs[0].tx) + NetOf(keys, hs[1..])
  }

  /** A handled transaction is exported, to file `name`, when its source is
      registered, its amount is positive and its status selects that file. */
  predicate ExportedTo(keys: set<string>, name: string, h: Handled) {
    h.tx.accountId in keys && h.tx.amount > 0 && FileName(h.bankName, h.tx.status) == name
  }

  /** The records a run of handled transactions adds to file `name`, in the
      order they were handled. */
  function ExportsOf(keys: set<string>, name: string, hs: seq<Handled>): seq<Record> {
    if hs == [] then []
    else (if ExportedTo(keys, name, hs[0]) then [ToRecord(hs[0].tx)] else []) + ExportsOf(keys, name, hs[1..])
  }

  lemma {:induction false} NetOfAppend(keys: set<string>, a: seq<Handled>, b: seq<Handled>)
    ensures NetOf(keys, a + b) == NetOf(keys, a) + NetOf(keys, b)
    decreases |a|
  {
    if a != [] {
      NetOfAppend(keys, a[1..], b);
      assert (a + b)[1..] == a[1..] + b;
    } else {
      assert a + b == b;
    }
  }

  lemma {:induction false} ExportsOfAppend(keys: set<string>, name: string, a: seq<Handled>, b: seq<Handled>)
    ensures ExportsOf(keys, name, a + b) == ExportsOf(keys, name, a) + ExportsOf(keys, name, b)
    decreases |a|
  {
    if a != [] {
      ExportsOfAppend(keys, name, a[1..], b);
      assert (a + b)[1..] == a[1..] + b;
    } else {
      assert a + b == b;
    }
  }

  /** `after` is `before` with, for every file, the records the run `hs`
      exports to it appended at its end. */
  ghost predicate ExportsAppended(before: Files, after: Files, keys: set<string>, hs: seq<Handled>) {
    forall n :: ExistingRecords(after, n) == ExistingRecords(before, n) + ExportsOf(keys, n, hs)
  }

  /** Two runs of exports, one after the other, export their concatenation. */
  lemma ExportsCompose(keys: set<string>, f0: Files, f1: Files, f2: Files, a: seq<Handled>, b: seq<Handled>)
    requires ExportsAppended(f0, f1, keys, a) && ExportsAppended(f1, f2, keys, b)
    ensures ExportsAppended(f0, f2, keys, a + b)
  {
    forall n
      ensures ExistingRecords(f2, n) == ExistingRecords(f0, n) + ExportsOf(keys, n, a + b)
    {
      ExportsComposeAt(keys, f0, f1, f2, a, b, n);
    }
  }

  /** The same, for one file. */
  lemma ExportsComposeAt(keys: set<string>, f0: Files, f1: Files, f2: Files, a: seq<Handled>, b: seq<Handled>,
                         n: string)
    requires ExistingRecords(f1, n) == ExistingRecords(f0, n) + ExportsOf(keys, n, a)
    requires ExistingRecords(f2, n) == ExistingRecords(f1, n) + ExportsOf(keys, n, b)
    ensures ExistingRecords(f2, n) == ExistingRecords(f0, n) + ExportsOf(keys, n, a + b)
  {
    var r0, ea, eb := ExistingRecords(f0, n), ExportsOf(keys, n, a), ExportsOf(keys, n, b);
    ExportsOfAppend(keys, n, a, b);
    assert r0 + ea + eb == r0 + (ea + eb);
  }


  /** One worker step adds, to every file, exactly the record its transaction
      contributes: one record to the file its status selects when it passed
      the gate, nothing otherwise. */
  lemma WorkerExports(reg: Registry, files: Files, tx: Transaction, bankName: string)
    ensures var r := WorkerStep(reg, files, tx, bankName);
            ExportsAppended(files, r.files, reg.Keys, [Handled(bankName, r.tx)])
  {
    var r := WorkerStep(reg, files, tx, bankName);
    var h := Handled(bankName, r.tx);
    assert [h][1..] == [];
    if tx.accountId in reg && tx.amount > 0 {
      AppendedRecords(files, r.files, FileName(bankName, r.tx.status), ToRecord(r.tx));
    }
  }

  /** Draining a queue moves exactly the net effect of what it handed back,
      never more than the queued amounts allow, and keeps every balance
      non-negative, starting from non-negative balances with room for every
      queued amount. */
  lemma {:induction false} DrainTotal(reg: Registry, files: Files, q: BoundedQueue, bankName: string)
    requires q.Valid()
    requires forall k :: k in reg ==> reg[k].balance >= 0
    requires Total(reg) + Positives(q.items) <= IntMax
    ensures var r := Drain(reg, files, q, bankName);
            && Total(r.registry) == Total(reg) + NetOf(reg.Keys, Tagged(bankName, r.processed))
            && Total(r.registry) <= Total(reg) + Positives(q.items)
            && forall k :: k in r.registry ==> r.registry[k].balance >= 0
    decreases |q.items|
  {
    if |q.items| != 0 {
      var t := Take(q);
      var s := WorkerStep(reg, files, t.head, bankName);
      var rest := Drain(s.registry, s.files, t.rest, bankName);
      var r := Drain(reg, files, q, bankName);
      assert r.registry == rest.registry && r.processed == [s.tx] + rest.processed;
      var hs := Tagged(bankName, r.processed);
      assert hs[0] == Handled(bankName, s.tx) && hs[1..] == Tagged(bankName, rest.processed);
      assert q.items[0] == t.head && q.items[1..] == t.rest.items;
      WorkerNet(reg, files, t.head, bankName);
      DrainTotal(s.registry, s.files, t.rest, bankName);
    }
  }


  /** Draining a queue appends to every file exactly the records of the handed
      back transactions that passed the gate and whose status selects that
      file, in FIFO order; every other file is left as it was. */
  lemma {:induction false} DrainExports(reg: Registry, files: Files, q: BoundedQueue, bankName: string)
    requires q.Valid()
    ensures var r := Drain(reg, files, q, bankName);
            ExportsAppended(files, r.files, reg.Keys, Tagged(bankName, r.processed))
    decreases |q.items|
  {
    if |q.items| != 0 {
      var t := Take(q);
      var s := WorkerStep(reg, files, t.head, bankName);
      var rest := Drain(s.registry, s.files, t.rest, bankName);
      var r := Drain(reg, files, q, bankName);
      assert r.files == rest.files && r.processed == [s.tx] + rest.processed;
      assert Tagged(bankName, r.processed) == [Handled(bankName, s.tx)] + Tagged(bankName, rest.processed);
      WorkerExports(reg, files, t.head, bankName);
      DrainExports(s.registry, s.files, t.rest, bankName);
      ExportsCompose(reg.Keys, files, s.files, r.files, [Handled(bankName, s.tx)], Tagged(bankName, rest.processed));
    }
  }


  /** Registry, export directory and bank queues after every processor has
      drained its queue, with the transactions as they were handed back. */
  datatype AllDrained = AllDrained(registry: Registry, files: Files, queues: BankQueues, handled: seq<Handled>)

  /** Every processor drains its queue, banks taken in the order `banks`. */
  function DrainAll(reg: Registry, files: Files, queues: BankQueues, banks: seq<string>): (r: AllDrained)
    requires forall b :: b in queues ==> queues[b].Valid()
    ensures SameAccounts(reg, r.registry)
    ensures r.queues.Keys == queues.Keys
    decreases |banks|
  {
    if banks == [] then AllDrained(reg, files, queues, [])
    else if banks[0] !in queues then DrainAll(reg, files, queues, banks[1..])
    else
      var d := Drain(reg, files, queues[banks[0]], banks[0]);
      var rest := DrainAll(d.registry, d.files, queues[banks[0] := d.queue], banks[1..]);
      AllDrained(rest.registry, rest.files, rest.queues, Tagged(banks[0], d.processed) + rest.handled)
  }

  /** After every processor has run, the queues of the banks visited are empty
      and keep their capacity; the queues of banks not visited are untouched. */
  lemma {:induction false} DrainAllQueues(reg: Registry, files: Files, queues: BankQueues, banks: seq<string>)
    requires forall b :: b in queues ==> queues[b].Valid()
    ensures var r := DrainAll(reg, files, queues, banks);
            forall b :: b in queues ==> r.queues[b].Valid() && r.queues[b].capacity == queues[b].capacity
    ensures var r := DrainAll(reg, files, queues, banks);
            forall b :: b in queues && b !in banks ==> r.queues[b] == queues[b]
    ensures var r := DrainAll(reg, files, queues, banks);
            forall b :: b in queues && b in banks ==> r.queues[b].items == []
    decreases |banks|
  {
    if banks == [] {
    } else if banks[0] !in queues {
      DrainAllQueues(reg, files, queues, banks[1..]);
      assert DrainAll(reg, files, queues, banks).queues == DrainAll(reg, files, queues, banks[1..]).queues;
      assert forall b :: b in banks ==> b == banks[0] || b in banks[1..];
    } else {
      var d := Drain(reg, files, queues[banks[0]], banks[0]);
      var queues' := queues[banks[0] := d.queue];
      DrainAllQueues(d.registry, d.files, queues', banks[1..]);
      assert DrainAll(reg, files, queues, banks).queues == DrainAll(d.registry, d.files, queues', banks[1..]).queues;
      assert forall b :: b in banks ==> b == banks[0] || b in banks[1..];
    }
  }

  /** The transactions the processor of `bankName` handed back, in the order
      it handed them back. */
  function HandledBy(bankName: string, hs: seq<Handled>): seq<Transaction> {
    if hs == [] then []
    else (if hs[0].bankName == bankName then [hs[0].tx] else []) + HandledBy(bankName, hs[1..])
  }

  lemma {:induction false} HandledByAppend(bankName: string, a: seq<Handled>, b: seq<Handled>)
    ensures HandledBy(bankName, a + b) == HandledBy(bankName, a) + HandledBy(bankName, b)
    decreases |a|
  {
    if a != [] {
      HandledByAppend(bankName, a[1..], b);
      assert (a + b)[0] == a[0] && (a + b)[1..] == a[1..] + b;
    } else {
      assert a + b == b;
    }
  }

  /** A run labelled with one bank is that bank's, and nobody else's. */
  lemma {:induction false} HandledByTagged(bankName: string, tagged: string, txs: seq<Transaction>)
    ensures HandledBy(bankName, Tagged(tagged, txs)) == if bankName == tagged then txs else []
    decreases |txs|
  {
    if txs != [] {
      assert Tagged(tagged, txs)[1..] == Tagged(tagged, txs[1..]);
      HandledByTagged(bankName, tagged, txs[1..]);
    }
  }

  /** Putting one bank's run in front adds it to that bank's share only. */
  lemma HandledByCons(tagged: string, txs: seq<Transaction>, hs: seq<Handled>)
    ensures forall b :: HandledBy(b, Tagged(tagged, txs) + hs) == (if b == tagged then txs else []) + HandledBy(b, hs)
  {
    forall b
      ensures HandledBy(b, Tagged(tagged, txs) + hs) == (if b == tagged then txs else []) + HandledBy(b, hs)
    {
      HandledByAppend(b, Tagged(tagged, txs), hs);
      HandledByTagged(b, tagged, txs);
    }
  }

  /** `out` is `txs` position by position with, at most, the status changed. */
  predicate StatusOnly(txs: seq<Transaction>, out: seq<Transaction>) {
    |out| == |txs| && forall i :: 0 <= i < |txs| ==> out[i] == SetStatus(txs[i], out[i].status)
  }

  /** The step of `DrainAllProcessed` for a first bank that has a queue: its
      run goes in front of the runs of the banks after it. */
  lemma HandledSplit(queues: BankQueues, queues': BankQueues, banks: seq<string>,
                     processed: seq<Transaction>, rest: seq<Handled>)
    requires banks != [] && banks[0] in queues && banks[0] !in banks[1..]
    requires queues'.Keys == queues.Keys
    requires forall b :: b in queues && b != banks[0] ==> queues'[b] == queues[b]
    requires StatusOnly(queues[banks[0]].items, processed)
    requires forall b :: b in queues' && b in banks[1..] ==> StatusOnly(queues'[b].items, HandledBy(b, rest))
    requires forall b :: !(b in queues' && b in banks[1..]) ==> HandledBy(b, rest) == []
    ensures forall b :: b in queues && b in banks ==>
              StatusOnly(queues[b].items, HandledBy(b, Tagged(banks[0], processed) + rest))
    ensures forall b :: !(b in queues && b in banks) ==> HandledBy(b, Tagged(banks[0], processed) + rest) == []
  {
    HandledByCons(banks[0], processed, rest);
    assert forall b :: b in banks <==> b == banks[0] || b in banks[1..];
    assert HandledBy(banks[0], rest) == [];
    assert HandledBy(banks[0], Tagged(banks[0], processed) + rest) == processed;
  }

  /** Every processor hands back exactly what its queue held, in FIFO order
      with only the status set, and nothing is handed back under a bank
      that has no queue or is not in `banks`. */
  lemma {:induction false} DrainAllProcessed(reg: Registry, files: Files, queues: BankQueues, banks: seq<string>)
    requires forall b :: b in queues ==> queues[b].Valid()
    requires forall i, j :: 0 <= i < j < |banks| ==> banks[i] != banks[j]
    ensures var r := DrainAll(reg, files, queues, banks);
            forall b :: b in queues && b in banks ==> StatusOnly(queues[b].items, HandledBy(b, r.handled))
    ensures var r := DrainAll(reg, files, queues, banks);
            forall b :: !(b in queues && b in banks) ==> HandledBy(b, r.handled) == []
    decreases |banks|
  {
    var r := DrainAll(reg, files, queues, banks);
    if banks == [] {
    } else if banks[0] !in queues {
      DrainAllProcessed(reg, files, queues, banks[1..]);
      assert r == DrainAll(reg, files, queues, banks[1..]);
      assert forall b :: b in banks <==> b == banks[0] || b in banks[1..];
    } else {
      var b0 := banks[0];
      var d := Drain(reg, files, queues[b0], b0);
      var queues' := queues[b0 := d.queue];
      var rest := DrainAll(d.registry, d.files, queues', banks[1..]);
      assert r.handled == Tagged(b0, d.processed) + rest.handled;
      DrainProcessed(reg, files, queues[b0], b0);
      DrainAllProcessed(d.registry, d.files, queues', banks[1..]);
      assert b0 !in banks[1..] by {
        forall j | 0 <= j < |banks| - 1
          ensures banks[1..][j] != b0
        {
          assert banks[1..][j] == banks[j + 1];
        }
      }
      HandledSplit(queues, queues', banks, d.processed, rest.handled);
    }
  }

  /** The positive amounts waiting in the queues of `banks`, one term per
      entry of `banks`. */
  function QueuedPositives(queues: BankQueues, banks: seq<string>): (n: int)
    ensures n >= 0
  {
    if banks == [] then 0
    else (if banks[0] in queues then Positives(queues[banks[0]].items) else 0) + QueuedPositives(queues, banks[1..])
  }

  lemma {:induction false} QueuedPositivesEmptied(queues: BankQueues, b: string, q: BoundedQueue, banks: seq<string>)
    requires q.items == []
    ensures QueuedPositives(queues[b := q], banks) <= QueuedPositives(queues, banks)
    decreases |banks|
  {
    if banks != [] {
      QueuedPositivesEmptied(queues, b, q, banks[1..]);
    }
  }

  /** Draining every queue moves exactly the net effect of everything handed
      back and keeps every balance non-negative, starting from non-negative
      balances with room for every queued amount. */
  lemma {:induction false} DrainAllTotal(reg: Registry, files: Files, queues: BankQueues, banks: seq<string>)
    requires forall b :: b in queues ==> queues[b].Valid()
    requires forall k :: k in reg ==> reg[k].balance >= 0
    requires Total(reg) + QueuedPositives(queues, banks) <= IntMax
    ensures var r := DrainAll(reg, files, queues, banks);
            && Total(r.registry) == Total(reg) + NetOf(reg.Keys, r.handled)
            && forall k :: k in r.registry ==> r.registry[k].balance >= 0
    decreases |banks|
  {
    if banks == [] {
    } else if banks[0] !in queues {
      DrainAllTotal(reg, files, queues, banks[1..]);
    } else {
      var b := banks[0];
      var d := Drain(reg, files, queues[b], b);
      var queues' := queues[b := d.queue];
      DrainTotal(reg, files, queues[b], b);
      QueuedPositivesEmptied(queues, b, d.queue, banks[1..]);
      DrainAllTotal(d.registry, d.files, queues', banks[1..]);
      var rest := DrainAll(d.registry, d.files, queues', banks[1..]);
      NetOfAppend(reg.Keys, Tagged(b, d.processed), rest.handled);
    }
  }

  /** Draining every queue appends to every file exactly the records of the
      handed back transactions that passed the gate and whose status selects
      that file, bank after bank in the order `banks`. */
  lemma {:induction false} DrainAllExports(reg: Registry, files: Files, queues: BankQueues, banks: seq<string>)
    requires forall b :: b in queues ==> queues[b].Valid()
    ensures var r := DrainAll(reg, files, queues, banks);
            ExportsAppended(files, r.files, reg.Keys, r.handled)
    decreases |banks|
  {
    if banks == [] {
    } else if banks[0] !in queues {
      DrainAllExports(reg, files, queues, banks[1..]);
    } else {
      var b := banks[0];
      var d := Drain(reg, files, queues[b], b);
      var queues' := queues[b := d.queue];
      var rest := DrainAll(d.registry, d.files, queues', banks[1..]);
      var r := DrainAll(reg, files, queues, banks);
      assert r.files == rest.files && r.handled == Tagged(b, d.processed) + rest.handled;
      assert d.registry.Keys == reg.Keys;
      DrainExports(reg, files, queues[b], b);
      DrainAllExports(d.registry, d.files, queues', banks[1..]);
      ExportsCompose(reg.Keys, files, d.files, r.files, Tagged(b, d.processed), rest.handled);
    }
  }



  lemma {:induction false} DistinctLength(order: seq<string>)
    requires forall i, j :: 0 <= i < j < |order| ==> order[i] != order[j]
    ensures |set k | k in order| == |order|
  {
    if order != [] {
      var rest := order[1..];
      DistinctLength(rest);
      assert (set k | k in order) == {order[0]} + (set k | k in rest);
    }
  }

  /** An enumeration of a key set has one entry per key. */
  lemma EnumerationLength(order: seq<string>, keys: set<string>)
    requires Enumerates(order, keys)
    ensures |order| == |keys|
  {
    DistinctLength(order);
    assert (set k | k in order) == keys;
  }

  /** After visiting the first `i` accounts of `order`: those are reset, the
      rest untouched, and their balances follow the old channel contents. */
  predicate SnapshotProgress(reg: Registry, order: seq<string>, balances: seq<int>,
                             reg': Registry, balances': seq<int>, i: nat)
    requires Enumerates(order, reg.Keys)
  {
    && i <= |order|
    && reg'.Keys == reg.Keys
    && (forall k :: k in reg ==>
          reg'[k] == if k in order[..i] then Accounts.ResetBalance(reg[k]) else reg[k])
    && |balances'| == |balances| + i && balances'[..|balances|] == balances
    && (forall j :: 0 <= j < i ==> balances'[|balances| + j] == reg[order[j]].balance)
  }

  /** Visiting the next account keeps `SnapshotProgress`. */
  lemma SnapshotStep(reg: Registry, order: seq<string>, balances: seq<int>,
                     reg': Registry, balances': seq<int>, i: nat)
    requires Enumerates(order, reg.Keys)
    requires SnapshotProgress(reg, order, balances, reg', balances', i) && i < |order|
    ensures order[i] in reg'
    ensures reg'[order[i]] == reg[order[i]]
    ensures SnapshotProgress(reg, order, balances,
                             reg'[order[i] := Accounts.ResetBalance(reg'[order[i]])],
                             balances' + [reg'[order[i]].balance], i + 1)
  {
    var k := order[i];
    assert k !in order[..i] by {
      forall j | 0 <= j < i
        ensures order[..i][j] != k
      {
        assert order[..i][j] == order[j];
      }
    }
    assert order[..i + 1] == order[..i] + [k];
    var b' := balances' + [reg'[k].balance];
    assert b'[..|balances|] == balances'[..|balances|];
  }

  /** Having visited every account, all are reset. */
  lemma SnapshotDone(reg: Registry, order: seq<string>, balances: seq<int>,
                     reg': Registry, balances': seq<int>)
    requires Enumerates(order, reg.Keys)
    requires SnapshotProgress(reg, order, balances, reg', balances', |order|)
    ensures SameAccounts(reg, reg')
    ensures forall k :: k in reg' ==> reg'[k].balance == 0
  {
    assert order[..|order|] == order;
  }

  /** End of cycle: reads each account's balance into the balance channel,
      visiting accounts in the iteration order `order`, and resets it to zero.
      Exactly one value per account is appended, the old channel contents stay
      in front, and every balance ends at zero. */
  method SnapshotAndReset(reg: Registry, order: seq<string>, balances: seq<int>)
    returns (reg': Registry, balances': seq<int>)
    requires Enumerates(order, reg.Keys)
    ensures SameAccounts(reg, reg')
    ensures forall k :: k in reg' ==> reg'[k].balance == 0
    ensures |balances'| == |balances| + |order| == |balances| + |reg|
    ensures balances'[..|balances|] == balances
    ensures forall i :: 0 <= i < |order| ==> balances'[|balances| + i] == reg[order[i]].balance
  {
    EnumerationLength(order, reg.Keys);
    reg' := reg;
    balances' := balances;
    var i := 0;
    while i < |order|
      invariant SnapshotProgress(reg, order, balances, reg', balances', i)
    {
      SnapshotStep(reg, order, balances, reg', balances', i);
      var k := order[i];
      balances' := balances' + [reg'[k].balance];
      reg' := reg'[k := Accounts.ResetBalance(reg'[k])];
      i := i + 1;
    }
    SnapshotDone(reg, order, balances, reg', balances');
  }

  /** A generated batch brings in at most its size times the largest amount. */
  lemma {:induction false} GeneratedPositives(ids: seq<string>, batch: seq<Transaction>)
    requires forall i :: 0 <= i < |batch| ==> Gen.WellGenerated(ids, batch[i])
    ensures Positives(batch) <= |batch| * LargestAmount
    decreases |batch|
  {
    if batch != [] {
      assert Gen.WellGenerated(ids, batch[0]);
      GeneratedPositives(ids, batch[1..]);
    }
  }

  lemma {:induction false} ForBankPositives(reg: Registry, batch: seq<Transaction>, b: string)
    requires SourcesKnown(reg, batch)
    ensures Positives(ForBank(reg, batch, b)) <= Positives(batch)
    decreases |batch|
  {
    if batch != [] {
      ForBankCons(reg, batch, b);
      ForBankPositives(reg, batch[1..], b);
      var rest := ForBank(reg, batch[1..], b);
      if reg[batch[0].accountId].bankName == b {
        assert ([batch[0]] + rest)[1..] == rest;
      } else {
        assert ([] + rest) == rest;
      }
    }
  }

  lemma {:induction false} QueuedPositivesBound(queues: BankQueues, banks: seq<string>, p: int)
    requires p >= 0
    requires forall b :: b in queues ==> Positives(queues[b].items) <= p
    ensures QueuedPositives(queues, banks) <= |banks| * p
    decreases |banks|
  {
    if banks != [] {
      QueuedPositivesBound(queues, banks[1..], p);
      assert |banks| * p == p + |banks[1..]| * p;
    }
  }

  /** Queues that hold each bank's share of a generated batch carry, each, at
      most the batch's size times the largest amount. */
  lemma RoutedPositives(reg: Registry, routed: BankQueues, ids: seq<string>, batch: seq<Transaction>)
    requires SourcesKnown(reg, batch)
    requires forall b :: b in routed ==> routed[b].items == ForBank(reg, batch, b)
    requires forall i :: 0 <= i < |batch| ==> Gen.WellGenerated(ids, batch[i])
    ensures forall b :: b in routed ==> Positives(routed[b].items) <= |batch| * LargestAmount
  {
    GeneratedPositives(ids, batch);
    forall b | b in routed
      ensures Positives(routed[b].items) <= |batch| * LargestAmount
    {
      ForBankPositives(reg, batch, b);
    }
  }

  lemma RouteBound(reg: Registry, queues: BankQueues, ids: seq<string>, batch: seq<Transaction>, routed: BankQueues)
    requires SourcesKnown(reg, batch) && RoomFor(reg, queues, batch)
    requires forall b :: b in queues ==> queues[b].items == []
    requires |batch| == TransactionsPerCycle
    requires forall i :: 0 <= i < |batch| ==> Gen.WellGenerated(ids, batch[i])
    requires routed == Route(reg, queues, batch)
    ensures forall b :: b in routed ==> routed[b].items == ForBank(reg, batch, b)
    ensures forall b :: b in routed ==> Positives(routed[b].items) <= TransactionsPerCycle * LargestAmount
  {
    forall b | b in routed
      ensures routed[b].items == ForBank(reg, batch, b)
    {
      assert [] + ForBank(reg, batch, b) == ForBank(reg, batch, b);
    }
    RoutedPositives(reg, routed, ids, batch);
  }

  /** The headroom a cycle's money clauses ask for when `bankCount` banks
      drain their queues: the seed deposits plus, for every bank, a whole
      batch at the largest amount. */
  function CycleBound(bankCount: nat): (n: int)
    ensures n >= SeedMoney
  {
    SeedMoney + bankCount * (TransactionsPerCycle * LargestAmount)
  }

  /** A freshly generated batch fits the empty bank queues: every source is
      registered and filed under a bank that has a queue with room for the
      whole batch. */
  lemma BatchRoutable(reg: Registry, queues: BankQueues, ids: seq<string>, batch: seq<Transaction>)
    requires Enumerates(ids, reg.Keys)
    requires forall k :: k in reg ==> reg[k].bankName in queues
    requires forall b :: b in queues ==>
               queues[b].Valid() && queues[b].items == [] && |batch| <= queues[b].capacity
    requires forall i :: 0 <= i < |batch| ==> Gen.WellGenerated(ids, batch[i])
    ensures SourcesKnown(reg, batch)
    ensures RoomFor(reg, queues, batch)
  {
    forall i | 0 <= i < |batch|
      ensures batch[i].accountId in reg
    {
      assert Gen.WellGenerated(ids, batch[i]);
    }
  }

  /** A simulator rebuilt from the results of a cycle is wired and idle again
      when the accounts kept their owners, the bank queues kept their banks and
      were emptied, and the generator is the retrieved one. */
  lemma CycleEndsWired(sim: BankSimulator, reset: Registry, queues: BankQueues, gen: Gen.Generator, balances: seq<int>)
    requires Wired(sim)
    requires SameAccounts(sim.accounts, reset)
    requires queues.Keys == sim.bankQueues.Keys
    requires forall b :: b in queues ==> queues[b].Valid() && queues[b].items == []
    requires gen.accountIds == sim.generator.accountIds && gen.buffer == []
    ensures Wired(BankSimulator(reset, queues, gen, balances))
    ensures Idle(BankSimulator(reset, queues, gen, balances))
  {
    forall k | k in reset
      ensures reset[k].id == k && reset[k].bankName in queues
    {
      assert Accounts.SameOwner(reset[k], sim.accounts[k]);
    }
  }

  /** The accounts start non-negative with headroom for everything a cycle
      over `bankCount` banks can bring in. */
  ghost predicate MoneyRoom(reg: Registry, bankCount: nat) {
    && (forall k :: k in reg ==> reg[k].balance >= 0)
    && Total(reg) + CycleBound(bankCount) <= IntMax
  }

  /** What a cycle needs: a wired, idle simulator holding the three seeded
      accounts, bank queues with room for a whole batch, one fitting set of
      draws per generated transaction, and an iteration order of the banks. */
  predicate Ready(sim: BankSimulator, ds: seq<Gen.Draws>, banks: seq<string>) {
    && Wired(sim) && Idle(sim)
    && Account1 in sim.accounts && Account2 in sim.accounts && Account3 in sim.accounts
    && (forall b :: b in sim.bankQueues ==> TransactionsPerCycle <= sim.bankQueues[b].capacity)
    && |ds| == TransactionsPerCycle && Gen.AllDrawsFit(sim.generator.accountIds, ds)
    && Enumerates(banks, sim.bankQueues.Keys)
  }

  /** The generator's part of a cycle: five transactions generated with the
      draws `ds`, then retrieved in one step. The batch is the i-th draw's
      transaction at position i, and the generator ends with an empty buffer
      over the same ids. */
  method GenerateBatch(sim: BankSimulator, ds: seq<Gen.Draws>, ghost banks: seq<string>)
    returns (batch: seq<Transaction>, gen': Gen.Generator)
    requires Ready(sim, ds, banks)
    ensures |batch| == TransactionsPerCycle
    ensures forall i :: 0 <= i < |batch| ==> batch[i] == Gen.Build(sim.generator.accountIds, ds[i])
    ensures forall i :: 0 <= i < |batch| ==> Gen.WellGenerated(sim.generator.accountIds, batch[i])
    ensures gen'.accountIds == sim.generator.accountIds && gen'.buffer == []
  {
    assert sim.generator.buffer == [];
    var gen := Gen.GenerateMany(sim.generator, ds);
    var retrieved := Gen.RetrieveAndClearBuffer(gen);
    batch, gen' := retrieved.batch, retrieved.generator;
    assert batch == gen.buffer && |batch| == |ds| == TransactionsPerCycle;
  }

  /** Routes a freshly generated batch to the empty bank queues by the banks
      of `seeded`, a registry with the simulator's accounts (the seeded one): every queue stays valid with its capacity and
      holds exactly its bank's share of the batch, in batch order, so at most
      five transactions' worth of money. */
  method RouteBatch(sim: BankSimulator, seeded: Registry, batch: seq<Transaction>)
    returns (routed: BankQueues)
    requires Wired(sim) && Idle(sim)
    requires forall b :: b in sim.bankQueues ==> TransactionsPerCycle <= sim.bankQueues[b].capacity
    requires SameAccounts(sim.accounts, seeded)
    requires |batch| == TransactionsPerCycle
    requires forall i :: 0 <= i < |batch| ==> Gen.WellGenerated(sim.generator.accountIds, batch[i])
    ensures SourcesKnown(seeded, batch)
    ensures forall b :: b in routed ==> routed[b].items == ForBank(seeded, batch, b)
    ensures routed.Keys == sim.bankQueues.Keys
    ensures forall b :: b in routed ==> routed[b].Valid() && routed[b].capacity == sim.bankQueues[b].capacity
    ensures forall b :: b in routed ==> Positives(routed[b].items) <= TransactionsPerCycle * LargestAmount
  {
    var ids := sim.generator.accountIds;
    forall k | k in seeded
      ensures seeded[k].bankName in sim.bankQueues
    {
      assert Accounts.SameOwner(seeded[k], sim.accounts[k]);
    }
    BatchRoutable(seeded, sim.bankQueues, ids, batch);
    routed := Route(seeded, sim.bankQueues, batch);
    RouteBound(seeded, sim.bankQueues, ids, batch, routed);
  }

  /** Generates five transactions with the draws `ds`, retrieves them and
      routes each to its source account's bank queue in the seeded registry.
      The batch is the i-th draw's transaction at position i; every queue
      stays valid with its capacity and holds exactly its bank's share of the
      batch, in batch order, so at most five transactions' worth of money;
      the generator ends with an empty buffer over the same ids. */
  method GenerateAndRoute(sim: BankSimulator, ds: seq<Gen.Draws>, banks: seq<string>, seeded: Registry)
    returns (batch: seq<Transaction>, routed: BankQueues, gen': Gen.Generator)
    requires Ready(sim, ds, banks)
    requires seeded == Seed(sim.accounts)
    ensures |batch| == TransactionsPerCycle
    ensures forall i :: 0 <= i < |batch| ==> batch[i] == Gen.Build(sim.generator.accountIds, ds[i])
    ensures SourcesKnown(seeded, batch)
    ensures forall b :: b in routed ==> routed[b].items == ForBank(seeded, batch, b)
    ensures routed.Keys == sim.bankQueues.Keys
    ensures forall b :: b in routed ==> routed[b].Valid() && routed[b].capacity == sim.bankQueues[b].capacity
    ensures gen'.accountIds == sim.generator.accountIds && gen'.buffer == []
    ensures forall b :: b in routed ==> Positives(routed[b].items) <= TransactionsPerCycle * LargestAmount
  {
    batch, gen' := GenerateBatch(sim, ds, banks);
    routed := RouteBatch(sim, seeded, batch);
  }

  /** The start of a cycle: seed the three accounts, then generate and route
      a batch. Accounts keep their owners, every queue stays valid and holds
      exactly its bank's share of the batch, and the generator ends with an
      empty buffer over the same ids. From
      non-negative balances with enough headroom, seeding adds exactly
      `SeedMoney` and keeps every balance non-negative. */
  method SeedAndRoute(sim: BankSimulator, ds: seq<Gen.Draws>, banks: seq<string>)
    returns (seeded: Registry, batch: seq<Transaction>, routed: BankQueues, gen': Gen.Generator)
    requires Ready(sim, ds, banks)
    ensures |batch| == TransactionsPerCycle
    ensures forall i :: 0 <= i < |batch| ==> batch[i] == Gen.Build(sim.generator.accountIds, ds[i])
    ensures SourcesKnown(sim.accounts, batch)
    ensures forall b :: b in routed ==> routed[b].items == ForBank(sim.accounts, batch, b)
    ensures seeded.Keys == sim.accounts.Keys
    ensures forall k :: k in seeded ==> Accounts.SameOwner(seeded[k], sim.accounts[k])
    ensures routed.Keys == sim.bankQueues.Keys
    ensures forall b :: b in routed ==> routed[b].Valid() && routed[b].capacity == sim.bankQueues[b].capacity
    ensures gen'.accountIds == sim.generator.accountIds && gen'.buffer == []
    ensures forall b :: b in routed ==> Positives(routed[b].items) <= TransactionsPerCycle * LargestAmount
    ensures MoneyRoom(sim.accounts, |banks|) ==> Total(seeded) == Total(sim.accounts) + SeedMoney
    ensures MoneyRoom(sim.accounts, |banks|) ==> forall k :: k in seeded ==> seeded[k].balance >= 0
  {
    seeded := Seed(sim.accounts);
    batch, routed, gen' := GenerateAndRoute(sim, ds, banks, seeded);
    forall b | b in routed
      ensures SourcesKnown(sim.accounts, batch) && routed[b].items == ForBank(sim.accounts, batch, b)
    {
      ForBankSameBanks(seeded, sim.accounts, batch, b);
    }
    if MoneyRoom(sim.accounts, |banks|) {
      SeedAddsMoney(sim.accounts);
    }
  }

  /** The processing half of a cycle: seed, generate and route, then let
      every processor drain its queue (banks in the order `banks`). Accounts
      keep their owners, every bank queue ends empty and the generator ends
      with an empty buffer over the same ids and every queue keeps its
      capacity. `batch` is the generated batch and `handled` lists the
      transactions as the processors handed them back: each bank's processor
      hands back exactly its share of the batch, in batch order with only the
      status set, and nothing under any other name; every file gains
      exactly the records of those that passed the gate and whose status
      selects it, and, from non-negative balances with enough headroom, the
      money in the registry grows by the seed deposits plus their net effect. */
  method ProcessBatch(sim: BankSimulator, files: Files, ds: seq<Gen.Draws>, banks: seq<string>)
    returns (batch: seq<Transaction>, reg': Registry, files': Files, queues': BankQueues, gen': Gen.Generator,
             handled: seq<Handled>)
    requires Ready(sim, ds, banks)
    ensures |batch| == TransactionsPerCycle
    ensures forall i :: 0 <= i < |batch| ==> batch[i] == Gen.Build(sim.generator.accountIds, ds[i])
    ensures SourcesKnown(sim.accounts, batch)
    ensures forall b :: b in sim.bankQueues ==> StatusOnly(ForBank(sim.accounts, batch, b), HandledBy(b, handled))
    ensures forall b :: b !in sim.bankQueues ==> HandledBy(b, handled) == []
    ensures reg'.Keys == sim.accounts.Keys
    ensures forall k :: k in reg' ==> Accounts.SameOwner(reg'[k], sim.accounts[k])
    ensures queues'.Keys == sim.bankQueues.Keys
    ensures forall b :: b in queues' ==>
              queues'[b].Valid() && queues'[b].items == [] && queues'[b].capacity == sim.bankQueues[b].capacity
    ensures gen'.accountIds == sim.generator.accountIds && gen'.buffer == []
    ensures ExportsAppended(files, files', sim.accounts.Keys, handled)
    ensures MoneyRoom(sim.accounts, |banks|) ==>
              Total(reg') == Total(sim.accounts) + SeedMoney + NetOf(sim.accounts.Keys, handled)
    ensures MoneyRoom(sim.accounts, |banks|) ==> forall k :: k in reg' ==> reg'[k].balance >= 0
  {
    var seeded, routed;
    seeded, batch, routed, gen' := SeedAndRoute(sim, ds, banks);
    var drained := DrainAll(seeded, files, routed, banks);
    DrainAllQueues(seeded, files, routed, banks);
    DrainAllProcessed(seeded, files, routed, banks);
    DrainAllExports(seeded, files, routed, banks);
    if MoneyRoom(sim.accounts, |banks|) {
      QueuedPositivesBound(routed, banks, TransactionsPerCycle * LargestAmount);
      DrainAllTotal(seeded, files, routed, banks);
    }
    reg', files', queues', handled := drained.registry, drained.files, drained.queues, drained.handled;
  }

  /** The end of a cycle: read every balance of `snapshot`, the registry as
      processing left it, into the balance channel in the order of the
      generator's ids, reset it, and put the simulator back together. It is
      wired and idle again, every balance is zero, and the channel keeps its
      old contents followed by one value per account. The accounts, the bank
      queues with their capacities and the generator's ids are those the
      cycle started with, so a simulator ready for a cycle is ready for the
      next one with the same draws. */
  method FinishCycle(sim: BankSimulator, snapshot: Registry, queues: BankQueues, gen: Gen.Generator,
                     ghost ds: seq<Gen.Draws>, ghost banks: seq<string>)
    returns (sim': BankSimulator)
    requires Wired(sim)
    requires SameAccounts(sim.accounts, snapshot)
    requires queues.Keys == sim.bankQueues.Keys
    requires forall b :: b in queues ==>
               queues[b].Valid() && queues[b].items == [] && queues[b].capacity == sim.bankQueues[b].capacity
    requires gen.accountIds == sim.generator.accountIds && gen.buffer == []
    ensures Wired(sim') && Idle(sim')
    ensures SameAccounts(sim.accounts, sim'.accounts)
    ensures sim'.generator.accountIds == sim.generator.accountIds
    ensures sim'.bankQueues.Keys == sim.bankQueues.Keys
    ensures forall b :: b in sim'.bankQueues ==> sim'.bankQueues[b].capacity == sim.bankQueues[b].capacity
    ensures Ready(sim, ds, banks) ==> Ready(sim', ds, banks)
    ensures forall k :: k in sim'.accounts ==> sim'.accounts[k].balance == 0
    ensures |sim'.balanceQueue| == |sim.balanceQueue| + |sim.generator.accountIds|
    ensures sim'.balanceQueue[..|sim.balanceQueue|] == sim.balanceQueue
    ensures forall i :: 0 <= i < |sim.generator.accountIds| ==>
              && sim.generator.accountIds[i] in snapshot
              && sim'.balanceQueue[|sim.balanceQueue| + i] == snapshot[sim.generator.accountIds[i]].balance
  {
    var reset, balances := SnapshotAndReset(snapshot, sim.generator.accountIds, sim.balanceQueue);
    CycleEndsWired(sim, reset, queues, gen, balances);
    sim' := BankSimulator(reset, queues, gen, balances);
  }

  /** One full cycle: seed, generate five transactions with the draws `ds`,
      retrieve them, route them, let every processor drain its queue (banks in
      the order `banks`), then snapshot and reset every balance. The snapshot
      walks the accounts in the order of the generator's id list, which was
      copied from the same, never restructured, account map. The cycle ends
      idle and wired as it started, with every balance zero; the balance
      channel gains, in id order, the balances of `snapshot`, the registry as
      processing left it; the batch, what the processors handed back, the
      files and the money behave as in `ProcessBatch`. The accounts, the bank
      queues with their capacities and the generator's ids stay those the
      cycle started with, so the simulator is ready for the next cycle. */
  method Cycle(sim: BankSimulator, files: Files, ds: seq<Gen.Draws>, banks: seq<string>)
    returns (batch: seq<Transaction>, sim': BankSimulator, files': Files, snapshot: Registry, handled: seq<Handled>)
    requires Ready(sim, ds, banks)
    ensures Ready(sim', ds, banks)
    ensures SameAccounts(sim.accounts, sim'.accounts)
    ensures sim'.generator.accountIds == sim.generator.accountIds
    ensures sim'.bankQueues.Keys == sim.bankQueues.Keys
    ensures forall b :: b in sim'.bankQueues ==> sim'.bankQueues[b].capacity == sim.bankQueues[b].capacity
    ensures |batch| == TransactionsPerCycle
    ensures forall i :: 0 <= i < |batch| ==> batch[i] == Gen.Build(sim.generator.accountIds, ds[i])
    ensures SourcesKnown(sim.accounts, batch)
    ensures forall b :: b in sim.bankQueues ==> StatusOnly(ForBank(sim.accounts, batch, b), HandledBy(b, handled))
    ensures forall b :: b !in sim.bankQueues ==> HandledBy(b, handled) == []
    ensures Wired(sim') && Idle(sim')
    ensures forall k :: k in sim'.accounts ==> sim'.accounts[k].balance == 0
    ensures |sim'.balanceQueue| == |sim.balanceQueue| + |sim.generator.accountIds|
    ensures sim'.balanceQueue[..|sim.balanceQueue|] == sim.balanceQueue
    ensures forall i :: 0 <= i < |sim.generator.accountIds| ==>
              && sim.generator.accountIds[i] in snapshot
              && sim'.balanceQueue[|sim.balanceQueue| + i] == snapshot[sim.generator.accountIds[i]].balance
    ensures ExportsAppended(files, files', sim.accounts.Keys, handled)
    ensures MoneyRoom(sim.accounts, |banks|) ==>
              Total(snapshot) == Total(sim.accounts) + SeedMoney + NetOf(sim.accounts.Keys, handled)
  {
    var queues, gen;
    batch, snapshot, files', queues, gen, handled := ProcessBatch(sim, files, ds, banks);
    sim' := FinishCycle(sim, snapshot, queues, gen, ds, banks);
  }
}

=== FILE: transaction.dfy ===
/** A banking transaction: who pays, how much, of which kind, with an optional
    transfer target and a status that moves from PENDING to a terminal value. */
module Transactions {
  import opened Base

  datatype TransactionType = Deposit | Withdrawal | Transfer
  datatype TransactionStatus = Pending | Completed | Failed

  /** The creation instant; the model never looks inside it. */
  datatype Timestamp = Timestamp(ticks: int)

  datatype Transaction = Transaction(
    accountId: string,
    targetAccountId: Option<string>,
    amount: Int32,
    txType: TransactionType,
    status: TransactionStatus,
    timestamp: Timestamp)

  /** Only a TRANSFER may name a target account. Both constructors and the
      target setter keep this; `SetType` does not. */
  predicate TargetOnlyForTransfer(tx: Transaction) {
    tx.targetAccountId.Some? ==> tx.txType == Transfer
  }

  /** The three-argument constructor (deposits and withdrawals). */
  function NewTransaction(accountId: string, amount: Int32, t: TransactionType, now: Timestamp): (tx: Transaction)
    ensures tx.status == Pending && tx.targetAccountId == None
    ensures tx.accountId == accountId && tx.amount == amount && tx.txType == t
    ensures tx.timestamp == now
    ensures TargetOnlyForTransfer(tx)
  {
    Transaction(accountId, None, amount, t, Pending, now)
  }

  /** The four-argument constructor: accepted only for TRANSFER, which then
      carries the given target; any other type throws. */
  function NewTransfer(accountId: string, amount: Int32, t: TransactionType, target: Option<string>, now: Timestamp)
    : (r: Result<Transaction>)
    ensures r.Ok? <==> t == Transfer
    ensures r.Ok? ==> r.value.targetAccountId == target
    ensures r.Ok? ==> r.value.(targetAccountId := None) == NewTransaction(accountId, amount, t, now)
    ensures r.Ok? ==> TargetOnlyForTransfer(r.value)
  {
    var tx := NewTransaction(accountId, amount, t, now);
    if t == Transfer then Ok(tx.(targetAccountId := target))
    else Err("Target account ID is required only for transfer transactions.")
  }

  /** Setting a target succeeds only on a TRANSFER; otherwise it throws and the
      caller's record stays as it was. */
  function SetTargetAccountId(tx: Transaction, target: Option<string>): (r: Result<Transaction>)
    ensures r.Ok? <==> tx.txType == Transfer
    ensures r.Ok? ==> r.value.targetAccountId == target
    ensures r.Ok? ==> r.value.(targetAccountId := tx.targetAccountId) == tx
    ensures r.Ok? ==> TargetOnlyForTransfer(r.value)
  {
    if tx.txType == Transfer then Ok(tx.(targetAccountId := target))
    else Err("Target account ID is not allowed for this transaction type.")
  }

  // Each plain setter writes its own field and nothing else: putting the old
  // value back yields the original record.

  function SetAccountId(tx: Transaction, accountId: string): (r: Transaction)
    ensures r.accountId == accountId && r.(accountId := tx.accountId) == tx
  {
    tx.(accountId := accountId)
  }

  function SetAmount(tx: Transaction, amount: Int32): (r: Transaction)
    ensures r.amount == amount && r.(amount := tx.amount) == tx
  {
    tx.(amount := amount)
  }

  /** Changes the type without looking at or clearing the target. */
  function SetType(tx: Transaction, t: TransactionType): (r: Transaction)
    ensures r.txType == t && r.(txType := tx.txType) == tx
    ensures r.targetAccountId == tx.targetAccountId
  {
    tx.(txType := t)
  }

  function SetStatus(tx: Transaction, s: TransactionStatus): (r: Transaction)
    ensures r.status == s && r.(status := tx.status) == tx
  {
    tx.(status := s)
  }

  function SetTimestamp(tx: Transaction, now: Timestamp): (r: Transaction)
    ensures r.timestamp == now && r.(timestamp := tx.timestamp) == tx
  {
    tx.(timestamp := now)
  }

  /** Setters other than `SetType` keep the target rule. */
  lemma SettersKeepTargetRule(tx: Transaction, id: string, amount: Int32, s: TransactionStatus,
                              now: Timestamp, target: Option<string>)
    requires TargetOnlyForTransfer(tx)
    ensures TargetOnlyForTransfer(SetAccountId(tx, id))
    ensures TargetOnlyForTransfer(SetAmount(tx, amount))
    ensures TargetOnlyForTransfer(SetStatus(tx, s))
    ensures TargetOnlyForTransfer(SetTimestamp(tx, now))
    ensures SetTargetAccountId(tx, target).Ok? ==> TargetOnlyForTransfer(SetTargetAccountId(tx, target).value)
  {
  }

  /** `SetType` can leave a non-TRANSFER holding a target: a transfer retyped
      as a deposit keeps its target. */
  lemma SetTypeCanBreakTargetRule(tx: Transaction, t: TransactionType)
    requires tx.targetAccountId.Some? && t != Transfer
    ensures !TargetOnlyForTransfer(SetType(tx, t))
  {
  }
}
